=== FILE: README.md ===
# Evernote Cloud SDK for iOS — a Dafny model of its core

The Evernote Cloud SDK lets an iOS application sign a user in to Evernote and then work
with their notes. Everything goes through a shared `ENSession`. The session hands out
note-store clients (`ENNoteStoreClient`): one for the user's own store, one for the
business store, and one per linked notebook. A notebook (`ENNotebook`) is personal,
joined shared, joined public or business, and its flags follow from which of those it
is. A note (`ENNote`) carries its title, content, tags and resources (`ENResource`). A
note ref (`ENNoteRef`) names a note in any of those stores and can be archived to data
and read back. The advanced layer adds:

- `ENXMLWriter`, a streaming XML writer checked against a DTD;
- `ENMLUtility`, which builds the `en-media` tag that references a resource from note content;
- the fetch-option bits of the note store;
- the batched find the session uses to page through search results.

The model has one module per source concern:

| file | modules | models |
|---|---|---|
| `common.dfy` | `Common` | option, outcome and error kinds; 32-bit and byte integer types |
| `flags.dfy` | `EnFlags` | the `EN_FLAG_*` macros, and a flag variable they update |
| `session_options.dfy` | `SessionOptions` | search scope, sort order, `maxResults`, upload policy |
| `note_store_options.dfy` | `NoteStoreOptions` | fetch options, the deprecated boolean calls, paging, sync chunk size |
| `batched_find.dfy` | `BatchedFind` | the paged metadata find loop |
| `notebook.dfy` | `Edam`, `Notebooks` | the service records, and `ENNotebook` and its flags |
| `note_ref.dfy` | `NoteRefs` | `ENNoteRef` and its data round trip |
| `store_client.dfy` | `StoreClients` | the client's FIFO queue of calls, its URL and token, the business client |
| `session.dfy` | `Routing`, `Sessions` | which store serves a notebook or note ref; `ENSession` state and accessors |
| `xml_writer.dfy` | `XmlWriting` | `ENXMLWriter` |
| `enml.dfy` | `Enml`, `Resources`, `NoteContents` | the media tag, `ENResource`, ENML note content |
| `note.dfy` | `Notes` | `ENNote` |
| `fat_field.dfy` | `FatFields` | `FATField`, the Thrift field descriptor |

Only the Objective-C headers of the SDK are visible, not the `.m` files. The model
follows what the headers declare: enum values, macro bodies, property types, and the
behaviour the doc comments promise. Where a header leaves behaviour open, the module's
doc comment says which reading the model takes.

- Service calls are oracles: the service's answer is a parameter (`ServicePage`, the
  outcome passed to `FinishFirst`, the grant passed to `CompleteAuthentication`).
- The MD5 hash of a resource's data is a parameter (`dataHash`).
- Delegates are recorded as logs of callbacks.

## Model

| member | source | states |
|---|---|---|
| EnFlags.IsSet | evernote-sdk-ios/ENSDK/Private/ENSDKPrivate.h:114 | `EN_FLAG_ISSET` is the C int 1 exactly when some bit of the mask is set in the value, else 0 |
| EnFlags.SetBits | evernote-sdk-ios/ENSDK/Private/ENSDKPrivate.h:115 | after `EN_FLAG_SET` every mask bit is set and every other bit is unchanged |
| EnFlags.ClearBits | evernote-sdk-ios/ENSDK/Private/ENSDKPrivate.h:116 | after `EN_FLAG_CLEAR` every mask bit is clear and every other bit is unchanged |
| EnFlags.SetThenIsSet | evernote-sdk-ios/ENSDK/Private/ENSDKPrivate.h:114-115 | ISSET holds after SET, for any non-empty mask |
| EnFlags.EmptyMaskNeverSet | evernote-sdk-ios/ENSDK/Private/ENSDKPrivate.h:114-115 | with the empty mask, ISSET is 0 even right after SET, so the non-empty condition above is needed |
| EnFlags.ClearThenNotSet | evernote-sdk-ios/ENSDK/Private/ENSDKPrivate.h:114-116 | ISSET is 0 after CLEAR |
| EnFlags.SetClearKeepOtherBits | evernote-sdk-ios/ENSDK/Private/ENSDKPrivate.h:115-116 | both macros leave the bits outside the mask as they were |
| EnFlags.SetClearIdempotent | evernote-sdk-ios/ENSDK/Private/ENSDKPrivate.h:115-116 | setting twice equals setting once, and clearing twice equals clearing once |
| EnFlags.SetClearInverse | evernote-sdk-ios/ENSDK/Private/ENSDKPrivate.h:115-116 | CLEAR undoes SET on bits that were clear, and SET undoes CLEAR on bits that were set |
| EnFlags.IsSetMeansAnyBit | evernote-sdk-ios/ENSDK/Private/ENSDKPrivate.h:114 | ISSET with a wider mask holds as soon as one bit of it is set (any bit, not all bits) |
| EnFlags.FlagWord.Set | evernote-sdk-ios/ENSDK/Private/ENSDKPrivate.h:115 | the variable becomes `SetBits` of its old value, and the assignment yields it; ISSET then holds for a non-empty mask; other bits are kept |
| EnFlags.FlagWord.Clear | evernote-sdk-ios/ENSDK/Private/ENSDKPrivate.h:116 | the variable becomes `ClearBits` of its old value; ISSET is then 0; other bits are kept |
| SessionOptions.ScopeAllExcludesAppNotebook | evernote-sdk-ios/ENSDK/ENSession.h:70-98 | the All scope is Personal, PersonalLinked and Business (value 7), without AppNotebook |
| SessionOptions.Defaults | evernote-sdk-ios/ENSDK/ENSession.h:94-136 | the default scope is Personal; the default sort is Title, in normal direction |
| SessionOptions.EffectiveScope | evernote-sdk-ios/ENSDK/ENSession.h:88-92 | with AppNotebook set, every other scope flag is ignored; otherwise only the three store flags count |
| SessionOptions.PlanSearch | evernote-sdk-ios/ENSDK/ENSession.h:70-98 | an explicit notebook overrides the scope; with no notebook, the search fails exactly when the effective scope is None; it targets the app notebook when that flag is set, and otherwise the stores the scope names |
| SessionOptions.AppNotebookOverridesScope | evernote-sdk-ios/ENSDK/ENSession.h:88-92 | any two scopes with AppNotebook set plan the same app-notebook search |
| SessionOptions.ScopeAllSearchesEverything | evernote-sdk-ios/ENSDK/ENSession.h:96-98 | the All scope searches all three stores |
| SessionOptions.ScopeNoneNeedsNotebook | evernote-sdk-ios/ENSDK/ENSession.h:70-74 | scope None succeeds if and only if a notebook is given |
| SessionOptions.ScopeCount | evernote-sdk-ios/ENSDK/ENSession.h:70-92 | a notebook or app-notebook plan searches one scope; a store plan searches exactly as many scopes as it has store flags set: none, one (exactly one flag), three (all flags), or otherwise two |
| SessionOptions.ScopeCountCountsStoreFlags | evernote-sdk-ios/ENSDK/ENSession.h:70-92 | for every scope word that plans a store search, the number of scopes searched is the number of store flags set in the word |
| SessionOptions.StoreFlagSetSize | evernote-sdk-ios/ENSDK/ENSession.h:76-86 | the three store flags are distinct, so each flag set adds one to the count |
| SessionOptions.SortKind | evernote-sdk-ios/ENSDK/ENSession.h:105-122 | the kind part of a sort order lies within the low four bits |
| SessionOptions.MakeSortOrder | evernote-sdk-ios/ENSDK/ENSession.h:103-135 | a kind plus a direction is a well-formed order whose kind and direction read back as given |
| SessionOptions.SortOrderDecomposes | evernote-sdk-ios/ENSDK/ENSession.h:103-135 | every well-formed order is exactly its kind plus its direction |
| SessionOptions.NormalIsNoFlag | evernote-sdk-ios/ENSDK/ENSession.h:127-134 | Normal is the absence of the Reverse bit, and Reverse is that bit |
| SessionOptions.RelevanceNeedsSingleScope | evernote-sdk-ios/ENSDK/ENSession.h:119-122 | examples: relevance ordering is refused across several stores and accepted for a notebook or a single store; title ordering is accepted everywhere |
| SessionOptions.RelevanceNeedsSingleScopeForEveryScope | evernote-sdk-ios/ENSDK/ENSession.h:119-122 | for every scope word that plans a search without a notebook, relevance ordering is valid if and only if one scope is searched, which holds if and only if the word sets AppNotebook or exactly one store flag |
| SessionOptions.ResultLimit | evernote-sdk-ios/ENSDK/ENSession.h:374 | a `maxResults` of 0 means every match; otherwise at most `maxResults`, and all of them when fewer are available |
| SessionOptions.DecideUpload | evernote-sdk-ios/ENSDK/ENSession.h:327-342 | Create always creates, in the given notebook. Replace replaces the given note if and only if it is given and still exists, and fails otherwise. ReplaceOrCreate always succeeds: it replaces when it can, else creates. A replacement always targets the given note |
| SessionOptions.NotebookIgnoredWhenReplacing | evernote-sdk-ios/ENSDK/ENSession.h:327-342 | when a note to replace is given under a replacing policy, the notebook argument makes no difference |
| NoteStoreOptions.FetchOptionsAreDistinctBits | evernote-sdk-ios/ENSDK/Advanced/ENNoteStoreClient.h:45-62 | the four `ENResourceFetchOption` values are single, pairwise distinct bits |
| NoteStoreOptions.NoteResourceOptions | evernote-sdk-ios/ENSDK/Advanced/ENNoteStoreClient.h:1032-1039 | the deprecated note fetch sets each option bit if and only if its boolean is true, and never sets attributes |
| NoteStoreOptions.ResourceOptions | evernote-sdk-ios/ENSDK/Advanced/ENNoteStoreClient.h:1136-1143 | the deprecated resource fetch sets each of the four bits if and only if its boolean is true, and no other bit |
| NoteStoreOptions.ResourceOptionsRoundTrip | evernote-sdk-ios/ENSDK/Advanced/ENNoteStoreClient.h:1136-1143 | the four booleans can be read back from the options they produce |
| NoteStoreOptions.ResourceOptionsOnto | evernote-sdk-ios/ENSDK/Advanced/ENNoteStoreClient.h:45-62 | every option set within the four declared bits is produced by exactly one choice of booleans |
| NoteStoreOptions.NoteOptionsAreResourceOptionsWithoutAttributes | evernote-sdk-ios/ENSDK/Advanced/ENNoteStoreClient.h:1032-1039 | the note call's mapping is the resource call's mapping with attributes off |
| NoteStoreOptions.ServicePage | evernote-sdk-ios/ENSDK/Advanced/ENNoteStoreClient.h:348-366 | a page starts at the offset, reports the total match count, returns no more than asked and no more than the service's cap, returns the matches from the offset on, and is non-empty while matches remain |
| NoteStoreOptions.ConsecutivePagesConcatenate | evernote-sdk-ios/ENSDK/Advanced/ENNoteStoreClient.h:348-366 | a page requested at the offset where a first page ends continues it: together they are the matches from the first offset on, with nothing skipped or repeated, whatever the sizes and caps of the two requests |
| NoteStoreOptions.LastPageHoldsTheRest | evernote-sdk-ios/ENSDK/Advanced/ENNoteStoreClient.h:354-356 | a page that reports no more results holds every remaining match |
| NoteStoreOptions.SyncChunkRequestSize | evernote-sdk-ios/ENSDK/Advanced/ENNoteStoreClient.h:88 | the requested `maxEntries` is what is wanted, capped at 256 |
| BatchedFind.NextRequestSize | evernote-sdk-ios/ENSDK/Private/ENSDKPrivate.h:93-98 | a request never asks for more than the batch size, nor for more than `maxResults` still allows, and asks for at least one |
| BatchedFind.FindNotesMetadata | evernote-sdk-ios/ENSDK/Private/ENSDKPrivate.h:93-98 | on success, the result is exactly the first `ResultLimit` matches, in order, whatever positive cap the service applies to each request. It fails if and only if the service fails one of the requests made, with that error and after that request. It makes between 1 and limit+1 requests |
| Notebooks.InitWithNotebook | evernote-sdk-ios/ENSDK/Private/ENSDKPrivate.h:50-51 | a personal notebook: not linked, not business, writable, with the record's guid and name |
| Notebooks.InitWithSharedNotebook | evernote-sdk-ios/ENSDK/Private/ENSDKPrivate.h:52-53 | a joined shared notebook: linked, not business, with the shared record's notebook guid and the share name |
| Notebooks.InitWithPublicNotebook | evernote-sdk-ios/ENSDK/Private/ENSDKPrivate.h:54-55 | a joined public notebook: linked and read-only, with the published record's guid and name |
| Notebooks.InitWithBusinessNotebook | evernote-sdk-ios/ENSDK/Private/ENSDKPrivate.h:56-57 | a business notebook: linked, business, with the business record's guid |
| Notebooks.AsAppNotebook | evernote-sdk-ios/ENSDK/ENNotebook.h:98-104 | the app notebook reports itself as the default, with everything else kept |
| Notebooks.ShapesAreDisjoint | evernote-sdk-ios/ENSDK/Private/ENSDKPrivate.h:50-57 | the four constructors build pairwise different kinds of notebook |
| Notebooks.SharedFlags | evernote-sdk-ios/ENSDK/ENNotebook.h:51-66 | `isShared` is own-shared or joined-shared, and never both |
| Notebooks.PublicFlags | evernote-sdk-ios/ENSDK/ENNotebook.h:68-84 | `isPublic` is own-public or joined-public, and never both |
| Notebooks.JoinedPublicIsReadOnly | evernote-sdk-ios/ENSDK/ENNotebook.h:46-84 | a joined public notebook is not writable, and a linked notebook is exactly one of joined shared and joined public |
| Notebooks.OwnershipRule | evernote-sdk-ios/ENSDK/ENNotebook.h:91-96 | personal notebooks are owned; a business notebook is owned if and only if the user is its contact; joined shared and public notebooks are not owned |
| Notebooks.DefaultNeedsPersonalOrOverride | evernote-sdk-ios/ENSDK/ENNotebook.h:98-104 | a default notebook is the account's own default personal notebook, or the app notebook |
| Notebooks.PersonalNotebookFlags | evernote-sdk-ios/ENSDK/ENNotebook.h:46-104 | a personal notebook is unlinked and not business; it is shared (own-shared) exactly when its record lists shares, public (own-public) exactly when published, writable, owned, default exactly when the record says so, with the record's guid and name |
| Notebooks.SharedNotebookFlags | evernote-sdk-ios/ENSDK/ENNotebook.h:46-104 | a joined shared notebook is linked, shared, joined-shared and not public; it is writable exactly when the share grants a modifying privilege; it is not owned nor default; its guid is the share's notebook guid and its name the share name |
| Notebooks.PublicNotebookFlags | evernote-sdk-ios/ENSDK/ENNotebook.h:46-104 | a joined public notebook is linked, public, joined-public and not shared; it is read-only, not owned nor default, with the published record's guid and name |
| Notebooks.BusinessNotebookFlags | evernote-sdk-ios/ENSDK/ENNotebook.h:46-104 | a business notebook is linked, business, shared and joined-shared, not public; writable exactly when the share grants a modifying privilege; owned exactly when the user is its contact; not default; with the business record's guid and name |
| NoteRefs.LinkedRefOf | evernote-sdk-ios/ENSDK/ENNoteRef.h:31-36 | a note ref keeps the linked notebook's guid, store URL, shard and shared-notebook id |
| NoteRefs.NoteRefInNotebook | evernote-sdk-ios/ENSDK/ENNoteRef.h:31-36 | a ref keeps the note's guid; it is personal if and only if the notebook is not linked, and business if and only if the notebook is business; it carries the linked notebook exactly when there is one |
| NoteRefs.EncodeChar | evernote-sdk-ios/ENSDK/ENNoteRef.h:47-52 | a character takes three bytes and never starts with the string terminator |
| NoteRefs.CharRoundTrip | evernote-sdk-ios/ENSDK/ENNoteRef.h:38-52 | a character's three bytes decode back to its code point |
| NoteRefs.EncodeString | evernote-sdk-ios/ENSDK/ENNoteRef.h:47-52 | a string is three bytes per character plus a terminator |
| NoteRefs.DecodeString | evernote-sdk-ios/ENSDK/ENNoteRef.h:38-45 | decoding a string consumes at least one byte |
| NoteRefs.StringRoundTrip | evernote-sdk-ios/ENSDK/ENNoteRef.h:38-52 | an encoded string decodes back to itself, leaving whatever followed it |
| NoteRefs.DecodeOptString | evernote-sdk-ios/ENSDK/ENNoteRef.h:38-45 | decoding an optional string consumes at least one byte |
| NoteRefs.OptStringRoundTrip | evernote-sdk-ios/ENSDK/ENNoteRef.h:38-52 | an encoded optional string decodes back to itself |
| NoteRefs.LinkedRoundTrip | evernote-sdk-ios/ENSDK/ENNoteRef.h:38-52 | an encoded linked-notebook pointer decodes back to itself |
| NoteRefs.AsData | evernote-sdk-ios/ENSDK/ENNoteRef.h:47-52 | the data is non-empty and starts with the ref's kind |
| NoteRefs.NoteRefRoundTrip | evernote-sdk-ios/ENSDK/ENNoteRef.h:38-52 | `noteRefFromData:` of `asData` gives back the same ref |
| NoteRefs.NoteRefFromData | evernote-sdk-ios/ENSDK/ENNoteRef.h:38-45 | a ref read from data has the kind its first byte names |
| NoteRefs.TailRoundTrip | evernote-sdk-ios/ENSDK/ENNoteRef.h:38-52 | the optional linked-notebook part of the data decodes back to itself |
| NoteRefs.CodePointSound | evernote-sdk-ios/ENSDK/ENNoteRef.h:38-45 | three bytes that decode to a character are exactly that character's encoding |
| NoteRefs.DecodeStringSound | evernote-sdk-ios/ENSDK/ENNoteRef.h:38-45 | a string read from data was written there: the data is its encoding followed by what is left |
| NoteRefs.DecodeOptStringSound | evernote-sdk-ios/ENSDK/ENNoteRef.h:38-45 | an optional string read from data is its encoding followed by what is left |
| NoteRefs.DecodeLinkedSound | evernote-sdk-ios/ENSDK/ENNoteRef.h:38-45 | a linked-notebook pointer read from data is its encoding followed by what is left |
| NoteRefs.TailSound | evernote-sdk-ios/ENSDK/ENNoteRef.h:38-45 | the linked-notebook part read from data is exactly its encoding |
| NoteRefs.NoteRefFromDataSound | evernote-sdk-ios/ENSDK/ENNoteRef.h:38-52 | `noteRefFromData:` accepts only archived refs: any ref it reads is the one whose `asData` is exactly the data, so with the round trip the two are inverse |
| NoteRefs.GuidSurvivesRoundTrip | evernote-sdk-ios/ENSDK/ENNoteRef.h:38-52 | the note's guid survives archiving |
| NoteRefs.AsDataInjective | evernote-sdk-ios/ENSDK/ENNoteRef.h:38-52 | two different refs never archive to the same data |
| StoreClients.CompletionOf | evernote-sdk-ios/ENSDK/Advanced/ENNoteStoreClient.h:78 | a completion fails if and only if the error is set, with that error; otherwise it carries the value |
| StoreClients.ValueUndefinedOnError | evernote-sdk-ios/ENSDK/Advanced/ENNoteStoreClient.h:78 | when the error is set, the value passed makes no difference |
| StoreClients.OpsOf | evernote-sdk-ios/ENSDK/Advanced/ENNoteStoreClient.h:868-871 | the calls of a list of completions, position by position |
| StoreClients.InFlight | evernote-sdk-ios/ENSDK/Advanced/ENNoteStoreClient.h:868-871 | a call is in flight if and only if one is pending, and it is the head of the queue |
| StoreClients.OpsOfAppend | evernote-sdk-ios/ENSDK/Advanced/ENNoteStoreClient.h:868-871 | one more completion adds its call at the end |
| StoreClients.CompleteHeadKeepsFifo | evernote-sdk-ios/ENSDK/Advanced/ENNoteStoreClient.h:868-871 | completing the head call, with any outcome, keeps completions in submission order |
| StoreClients.StepKeepsFifo | evernote-sdk-ios/ENSDK/Advanced/ENNoteStoreClient.h:868-871 | submitting, finishing and cancelling each keep completions in submission order |
| StoreClients.RunKeepsFifo | evernote-sdk-ios/ENSDK/Advanced/ENNoteStoreClient.h:868-871 | after any run of events, the completions delivered are a prefix of the calls submitted, in order |
| StoreClients.CancelAffectsOnlyHead | evernote-sdk-ios/ENSDK/Advanced/ENNoteStoreClient.h:868-871 | cancelling completes only the head, with Cancelled, and leaves the calls behind it queued; on an empty queue it does nothing |
| StoreClients.CancelThenNextRuns | evernote-sdk-ios/ENSDK/Advanced/ENNoteStoreClient.h:868-871 | with A in flight and B queued, cancel then finish completes A with Cancelled and then B with its reply |
| StoreClients.NoteStoreClient.NoteStoreUrl | evernote-sdk-ios/ENSDK/Private/ENSDKPrivate.h:80-84 | a direct client reports the URL it was made with; a business client reports its delegate's URL, or nil without a delegate |
| StoreClients.NoteStoreClient.AuthenticationToken | evernote-sdk-ios/ENSDK/Private/ENSDKPrivate.h:80-84 | a direct client reports its own token; a business client reports its delegate's token, or nil without a delegate |
| StoreClients.NoteStoreClient.WithUrl | evernote-sdk-ios/ENSDK/Private/ENSDKPrivate.h:86-87 | a new client with an empty queue that reports the given URL and token |
| StoreClients.NoteStoreClient.ForBusiness | evernote-sdk-ios/ENSDK/Advanced/ENBusinessNoteStoreClient.h:37-40 | a new business client with an empty queue and no delegate yet |
| StoreClients.NoteStoreClient.SetDelegate | evernote-sdk-ios/ENSDK/Advanced/ENBusinessNoteStoreClient.h:32-38 | once a delegate is set, a business client reports the delegate's URL and token; the queue is kept |
| StoreClients.NoteStoreClient.Submit | evernote-sdk-ios/ENSDK/Advanced/ENNoteStoreClient.h:868-871 | a submitted call joins the end of the queue, and is in flight when the queue was empty; FIFO order is kept |
| StoreClients.NoteStoreClient.FinishFirst | evernote-sdk-ios/ENSDK/Advanced/ENNoteStoreClient.h:76-80 | the call in flight completes with the service's outcome; FIFO order is kept |
| StoreClients.NoteStoreClient.CancelFirstOperation | evernote-sdk-ios/ENSDK/Advanced/ENNoteStoreClient.h:868-871 | only the head call is removed, completing with Cancelled; an empty queue is unchanged; FIFO order is kept |
| StoreClients.CreateBusinessNotebook | evernote-sdk-ios/ENSDK/Advanced/ENBusinessNoteStoreClient.h:42-51 | needs a notebook name. It succeeds if and only if both the creation and the join succeed; otherwise it reports the first failure. On success the result is the joined linked notebook: it carries the requested name as its share name and points at the share the creation made, in the business account's shard and store, under the guid the join gave it |
| StoreClients.CreatedBusinessNotebookIsBusiness | evernote-sdk-ios/ENSDK/Advanced/ENBusinessNoteStoreClient.h:42-51 | what a successful creation yields makes a business notebook with the requested name and the new guid, whose linked record points at the share the creation made |
| Routing.RouteNotebook | evernote-sdk-ios/ENSDK/Advanced/ENSDKAdvanced.h:123-131 | the primary store if and only if the notebook is not linked; the business store if and only if it is a business notebook; otherwise the store of its own linked notebook |
| Routing.RouteNoteRef | evernote-sdk-ios/ENSDK/Advanced/ENSDKAdvanced.h:113-121 | personal refs go to the primary store and business refs to the business store; shared refs go to the store of their linked notebook, and to none when they have none |
| Routing.NoteRefRoutesLikeItsNotebook | evernote-sdk-ios/ENSDK/Advanced/ENSDKAdvanced.h:113-131 | a note found in a notebook is reached through the same store as the notebook |
| Routing.PrimaryServesPersonalNotebooks | evernote-sdk-ios/ENSDK/Advanced/ENSDKAdvanced.h:88-94 | personal notebooks, including an app notebook, are served by the primary store |
| Routing.LinkedNotebooksGetTheirOwnStore | evernote-sdk-ios/ENSDK/Advanced/ENSDKAdvanced.h:104-111 | two different linked notebooks are routed to different stores |
| Sessions.Session.constructor | evernote-sdk-ios/ENSDK/ENSession.h:168-186 | a new session is signed out, with no authentication running and linked app notebooks supported |
| Sessions.Session.IsBusinessUser | evernote-sdk-ios/ENSDK/ENSession.h:183-186 | YES exactly when the grant carries a business delegate; in a valid session only a signed-in user is a business user. `BusinessNoteStore` gives a client exactly when this holds |
| Sessions.Session.AppNotebookIsLinked | evernote-sdk-ios/ENSDK/Advanced/ENSDKAdvanced.h:47-55 | reports what the authorization said about the app notebook, unmasked; in a valid session it is YES only for a grant obtained while the app supported linked app notebooks |
| Sessions.Session.SetSupportsLinkedAppNotebook | evernote-sdk-ios/ENSDK/Advanced/ENSDKAdvanced.h:40-46 | sets the setting and nothing else: the grant held, what the running authenticator was told and what is reported about the app notebook are unchanged |
| Sessions.Session.BeginAuthentication | evernote-sdk-ios/ENSDK/ENSession.h:173-176 | only one authentication runs at a time: an attempt during another fails with AuthenticationInProgress and changes nothing else; a started one hands the authenticator the current linked-app-notebook setting |
| Sessions.Session.CompleteAuthentication | evernote-sdk-ios/ENSDK/ENSession.h:263-274 | success signs in with the granted credentials and an empty preferences store, and records the setting the authenticator was told; failure leaves the session signed out and reports the error; either way no client of an earlier sign-in is kept. The app notebook is reported linked exactly when the authorization said so, never for an authentication begun with the setting off |
| Sessions.Session.Unauthenticate | evernote-sdk-ios/ENSDK/ENSession.h:276-279 | the session is signed out: no credentials, clients or preferences |
| Sessions.Session.PrimaryNoteStore | evernote-sdk-ios/ENSDK/Advanced/ENSDKAdvanced.h:88-94 | a client exists if and only if signed in; it is made once, on the granted URL and token, and reused afterwards; the other clients are unchanged |
| Sessions.Session.BusinessNoteStore | evernote-sdk-ios/ENSDK/Advanced/ENSDKAdvanced.h:96-102 | a client exists if and only if signed in as a business member; it is made once, as a business client whose delegate gives the business URL and token |
| Sessions.Session.NoteStoreForLinkedNotebook | evernote-sdk-ios/ENSDK/Advanced/ENSDKAdvanced.h:104-111 | each linked notebook gets one client of its own, on that notebook's store URL, made on first use and reused afterwards; only its own cache entry can change |
| Sessions.Session.NoteStoreFor | evernote-sdk-ios/ENSDK/Advanced/ENSDKAdvanced.h:86-131 | the client of the primary, business or linked store, as asked, bound to that store's URL and token; the caches of the other stores are unchanged |
| Sessions.Session.NoteStoreForNotebook | evernote-sdk-ios/ENSDK/Advanced/ENSDKAdvanced.h:123-131 | a personal notebook gets the primary client, on the granted URL; a business notebook the business client; another linked notebook the client of its own linked notebook, on that notebook's URL. The other caches are unchanged |
| Sessions.Session.NoteStoreForNoteRef | evernote-sdk-ios/ENSDK/Advanced/ENSDKAdvanced.h:113-121 | a personal ref gets the primary client, a business ref the business client, a shared ref the client of its linked notebook on that notebook's URL, and a shared ref without one gets nil with nothing changed. The other caches are unchanged |
| XmlWriting.EscapeChar | evernote-sdk-ios/ENSDK/Advanced/Utilities/ENMLWriter/ENXMLWriter.h:73-84 | each character escapes to at least one character |
| XmlWriting.UnescapeChar | evernote-sdk-ios/ENSDK/Advanced/Utilities/ENMLWriter/ENXMLWriter.h:73-84 | an escaped character reads back as itself |
| XmlWriting.UnescapeEscape | evernote-sdk-ios/ENSDK/Advanced/Utilities/ENMLWriter/ENXMLWriter.h:73-84 | escaping loses nothing: escaped text and escaped attribute values read back as the original |
| XmlWriting.EscapeDistributes | evernote-sdk-ios/ENSDK/Advanced/Utilities/ENMLWriter/ENXMLWriter.h:83-84 | escaping two pieces gives the escaping of the whole |
| XmlWriting.EscapedIsMarkupFree | evernote-sdk-ios/ENSDK/Advanced/Utilities/ENMLWriter/ENXMLWriter.h:73-84 | escaped output has no `<` or `>`, every `&` in it begins `&amp;`, `&lt;`, `&gt;` or `&quot;`, and escaped attribute values have no `"` |
| XmlWriting.AmpersandsStartEntities | evernote-sdk-ios/ENSDK/Advanced/Utilities/ENMLWriter/ENXMLWriter.h:73-84 | every `&` of escaped output begins one of the four entity references |
| XmlWriting.EscapeText | evernote-sdk-ios/ENSDK/Advanced/Utilities/ENMLWriter/ENXMLWriter.h:83-84 | text escaped for `writeString:` reads back unchanged, holds no `<` or `>`, and has `&` only at the start of an entity reference |
| XmlWriting.EscapeAttribute | evernote-sdk-ios/ENSDK/Advanced/Utilities/ENMLWriter/ENXMLWriter.h:73-78 | a value escaped for `writeAttributeName:value:` reads back unchanged, holds no `<`, `>` or `"`, and has `&` only at the start of an entity reference |
| XmlWriting.AttributeEscapeExample | evernote-sdk-ios/ENSDK/Advanced/Utilities/ENMLWriter/ENXMLWriter.h:73-78 | the attribute value `foo&bar` is written `foo&amp;bar` |
| XmlWriting.DataOfAppendData | evernote-sdk-ios/ENSDK/Advanced/Utilities/ENMLWriter/ENXMLWriter.h:94 | one more data callback adds its data at the end of what the delegate has received |
| XmlWriting.DataOfAppendEnd | evernote-sdk-ios/ENSDK/Advanced/Utilities/ENMLWriter/ENXMLWriter.h:95 | the end-of-document callback adds no data |
| XmlWriting.EscapePlain | evernote-sdk-ios/ENSDK/Advanced/Utilities/ENMLWriter/ENXMLWriter.h:83-84 | text with no `&`, `<`, `>` or `"` is written unchanged |
| XmlWriting.AttributesTextStep | evernote-sdk-ios/ENSDK/Advanced/Utilities/ENMLWriter/ENXMLWriter.h:53-54 | each further attribute adds its own text when the DTD allows it and nothing when it does not |
| XmlWriting.ClosingTextEndsWithOutermost | evernote-sdk-ios/ENSDK/Advanced/Utilities/ENMLWriter/ENXMLWriter.h:47-60 | closing every open element ends with the end tag of the outermost element |
| XmlWriting.ElementTextComposes | evernote-sdk-ios/ENSDK/Advanced/Utilities/ENMLWriter/ENXMLWriter.h:62-71 | starting an element, writing its content and ending it writes one complete element |
| XmlWriting.XmlWriter.constructor | evernote-sdk-ios/ENSDK/Advanced/Utilities/ENMLWriter/ENXMLWriter.h:37-45 | a new writer has no output, no open element and the given DTD |
| XmlWriting.XmlWriter.Emit | evernote-sdk-ios/ENSDK/Advanced/Utilities/ENMLWriter/ENXMLWriter.h:94 | the text is appended to `contents`, the delegate receives it as one more data callback, and nothing else changes |
| XmlWriting.XmlWriter.NotifyEnd | evernote-sdk-ios/ENSDK/Advanced/Utilities/ENMLWriter/ENXMLWriter.h:95 | the delegate receives the end-of-document callback, and nothing else changes |
| XmlWriting.XmlWriter.StartDocument | evernote-sdk-ios/ENSDK/Advanced/Utilities/ENMLWriter/ENXMLWriter.h:47 | the XML declaration is written and handed to the delegate as one chunk; the open elements are unchanged |
| XmlWriting.XmlWriter.StartElement | evernote-sdk-ios/ENSDK/Advanced/Utilities/ENMLWriter/ENXMLWriter.h:50-52 | succeeds if and only if the DTD declares the element; it then opens the element and counts it; when refused, nothing is written |
| XmlWriting.XmlWriter.StartElementWithAttributes | evernote-sdk-ios/ENSDK/Advanced/Utilities/ENMLWriter/ENXMLWriter.h:50-58 | as `StartElement`, followed by the allowed attributes, escaped, in the order given |
| XmlWriting.XmlWriter.EndElement | evernote-sdk-ios/ENSDK/Advanced/Utilities/ENMLWriter/ENXMLWriter.h:60 | closes the innermost element and decrements the count; with nothing open it writes nothing |
| XmlWriting.XmlWriter.WriteAttributeName | evernote-sdk-ios/ENSDK/Advanced/Utilities/ENMLWriter/ENXMLWriter.h:73-78 | succeeds if and only if a start tag is open and the DTD allows the attribute there; it then writes the value escaped |
| XmlWriting.XmlWriter.WriteString | evernote-sdk-ios/ENSDK/Advanced/Utilities/ENMLWriter/ENXMLWriter.h:83-84 | writes the text escaped; nil writes nothing |
| XmlWriting.XmlWriter.WriteRawString | evernote-sdk-ios/ENSDK/Advanced/Utilities/ENMLWriter/ENXMLWriter.h:80-81 | writes the text exactly as given; nil writes nothing |
| XmlWriting.XmlWriter.StartCDATA | evernote-sdk-ios/ENSDK/Advanced/Utilities/ENMLWriter/ENXMLWriter.h:86 | opens a CDATA section |
| XmlWriting.XmlWriter.WriteCDATA | evernote-sdk-ios/ENSDK/Advanced/Utilities/ENMLWriter/ENXMLWriter.h:87 | writes the text unescaped |
| XmlWriting.XmlWriter.EndCDATA | evernote-sdk-ios/ENSDK/Advanced/Utilities/ENMLWriter/ENXMLWriter.h:88 | closes an open CDATA section; otherwise writes nothing |
| XmlWriting.XmlWriter.WriteElement | evernote-sdk-ios/ENSDK/Advanced/Utilities/ENMLWriter/ENXMLWriter.h:62-71 | writes one complete element if and only if the DTD declares it; the open elements end as they began |
| XmlWriting.XmlWriter.EndDocument | evernote-sdk-ios/ENSDK/Advanced/Utilities/ENMLWriter/ENXMLWriter.h:48-96 | closes every open element, innermost first; the last callback is end-of-document |
| Enml.HexDigit | evernote-sdk-ios/ENSDK/Advanced/Utilities/ENMLUtility.h:35-41 | a digit value is written as a lowercase hex digit |
| Enml.HexValue | evernote-sdk-ios/ENSDK/Advanced/Utilities/ENMLUtility.h:35-41 | a hex digit's value is below 16 |
| Enml.HexDigitValue | evernote-sdk-ios/ENSDK/Advanced/Utilities/ENMLUtility.h:35-41 | each digit reads back as its value |
| Enml.HexEncode | evernote-sdk-ios/ENSDK/Advanced/Utilities/ENMLUtility.h:35-41 | two lowercase hex digits per byte |
| Enml.HexDecodeByte | evernote-sdk-ios/ENSDK/Advanced/Utilities/ENMLUtility.h:35-41 | the two digits of a byte decode to that byte, ahead of whatever follows |
| Enml.HexRoundTrip | evernote-sdk-ios/ENSDK/Advanced/Utilities/ENMLUtility.h:35-41 | the hex form decodes back to the hash |
| Enml.Md5HashIs32Characters | evernote-sdk-ios/ENSDK/Advanced/Utilities/ENMLUtility.h:35-41 | an MD5 hash is written as 32 characters |
| Enml.MediaTagWithDataHash | evernote-sdk-ios/ENSDK/Advanced/Utilities/ENMLUtility.h:35-41 | the tag's length is the fixed parts, plus the MIME type, plus two characters per hash byte |
| Enml.PiecesOfTag | evernote-sdk-ios/ENSDK/Advanced/Utilities/ENMLUtility.h:35-41 | the prefix, the MIME type and the hash can each be cut back out of a tag at their fixed offsets |
| Enml.MediaTagAttributes | evernote-sdk-ios/ENSDK/Advanced/Utilities/ENMLUtility.h:35-41 | the tag is an `en-media` element whose `type` is the MIME type and whose `hash` decodes to the data hash |
| Enml.MediaTagInjective | evernote-sdk-ios/ENSDK/Advanced/Utilities/ENMLUtility.h:35-41 | different hashes give different tags |
| Resources.InitWithDataMimeTypeFilename | evernote-sdk-ios/ENSDK/ENResource.h:54-63 | the resource keeps the data, MIME type and filename given |
| Resources.InitWithDataMimeType | evernote-sdk-ios/ENSDK/ENResource.h:65-73 | the resource keeps the data and MIME type given, and has no filename |
| Resources.InitWithImage | evernote-sdk-ios/ENSDK/ENResource.h:75-85 | keeps the smaller of the PNG and JPEG encodings, labelled with its MIME type (PNG when they are the same size) |
| Resources.ImageKeepsSmallerEncoding | evernote-sdk-ios/ENSDK/ENResource.h:75-85 | no smaller encoding was available, and JPEG is chosen only when strictly smaller |
| Resources.MediaTag | evernote-sdk-ios/ENSDK/ENResource.h:87-92 | the resource's media tag carries its MIME type and its data hash |
| NoteContents.NoteContentWithEnml | evernote-sdk-ios/ENSDK/Advanced/ENSDKAdvanced.h:175-201 | content made from ENML reports that same ENML |
| NoteContents.Enml | evernote-sdk-ios/ENSDK/Advanced/ENSDKAdvanced.h:194-201 | for content created with ENML, the same ENML; stated by `NoteContentWithEnml`'s contract, and `ContentFromItsEnml` proves it inverse to `noteContentWithENML:` |
| NoteContents.EnmlDeterminesContent | evernote-sdk-ios/ENSDK/Advanced/ENSDKAdvanced.h:175-201 | content made from different ENML is different |
| NoteContents.ContentFromItsEnml | evernote-sdk-ios/ENSDK/Advanced/ENSDKAdvanced.h:175-201 | content is rebuilt from its `enml`: `enml` and `noteContentWithENML:` are inverse |
| Notes.Note.constructor | evernote-sdk-ios/ENSDK/ENNote.h:40-47 | a new note is empty: no title, content, tags or resources, and not a reminder |
| Notes.Note.Resources | evernote-sdk-ios/ENSDK/ENNote.h:45 | the note's resources in the order they were added; `AddResource` and `RemoveAllResources` state how the list changes |
| Notes.Note.AddResource | evernote-sdk-ios/ENSDK/ENNote.h:45-46 | the resource goes at the end of the list; the earlier resources and the other fields are unchanged |
| Notes.Note.RemoveAllResources | evernote-sdk-ios/ENSDK/ENNote.h:47 | the list becomes empty; the other fields are unchanged |
| Notes.Note.SetTitle | evernote-sdk-ios/ENSDK/ENNote.h:41 | stores the title; the other fields are unchanged |
| Notes.Note.SetTagNames | evernote-sdk-ios/ENSDK/ENNote.h:43 | stores the tag names; the other fields are unchanged |
| Notes.Note.SetContent | evernote-sdk-ios/ENSDK/ENNote.h:42 | stores the content; the other fields are unchanged |
| Notes.Note.SetIsReminder | evernote-sdk-ios/ENSDK/ENNote.h:44 | stores the reminder flag; the other fields are unchanged |
| FatFields.ToUInt32 | evernote-sdk-ios/ENSDK/Private/3rdParty/Thrift/FATField.h:54-70 | an `int` argument stored in a `uint32_t` property keeps its value if non-negative, and wraps modulo 2^32 if negative |
| FatFields.ToUInt32Injective | evernote-sdk-ios/ENSDK/Private/3rdParty/Thrift/FATField.h:54-70 | different arguments are stored differently |
| FatFields.FieldWithIndex | evernote-sdk-ios/ENSDK/Private/3rdParty/Thrift/FATField.h:49-52 | records index, type, optional and name; every key and value part is zero or nil |
| FatFields.FieldWithValueType | evernote-sdk-ios/ENSDK/Private/3rdParty/Thrift/FATField.h:54-60 | records the header and the value type and class, with no key; meaningful for SET, LIST, MAP and STRUCT |
| FatFields.FieldWithKeyType | evernote-sdk-ios/ENSDK/Private/3rdParty/Thrift/FATField.h:62-70 | records the header and the key and value types and classes; meaningful for MAP |
| FatFields.FactoriesAgree | evernote-sdk-ios/ENSDK/Private/3rdParty/Thrift/FATField.h:49-70 | the three factories record index, type, optional and name the same way |
| FatFields.FactoriesNest | evernote-sdk-ios/ENSDK/Private/3rdParty/Thrift/FATField.h:49-70 | the key factory without a key part is the value factory, and the value factory without a value part is the plain factory |
| FatFields.ValueTypeOutsideContainersIsNotApplicable | evernote-sdk-ios/ENSDK/Private/3rdParty/Thrift/FATField.h:40-60 | the value factory on a type without elements sets parts that type never reads |

## Left out

- The network, Thrift serialisation and the RPC transport: a service call is an oracle whose answer is a parameter.
- The note-store calls other than the find, fetch-option, sync-chunk and business-notebook rules above. They differ only in their Thrift payloads.
- The deprecated boolean variants of calls beyond their mapping onto option bits: they forward to the option-based calls.
- OAuth, app switching, `handleOpenURL:`, the keychain and the stored credentials: the result of authorization is a parameter of `CompleteAuthentication`.
- `ENTException`, `ENShareURLHelper`, `ENNoteSearch`, logging, the notebook picker, the token view and the sample application: outside the core.
- The SAX parser, ENML-to-HTML conversion and the content constructors from plain string, content array or sanitized HTML: only content made from ENML is modelled.
- Progress handlers, thumbnails and web archives: these are UI and I/O concerns.
- Threading and main-queue dispatch: the model is sequential, and one step is one event.
- `ownerDisplayName` and the other display-only properties of `ENNotebook`.
- Notebooks.ENNotebook.AllowsWriting: the privilege levels that allow writing (ModifyNotebookPlusActivity, FullAccess, BusinessFullAccess) are this model's reading; the header says only "read/write for the current user".
- The MD5 computation: the hash is a parameter (`dataHash`).
- Resources.MediaTag: the `width` and `height` attributes that the example tag of `mediaTag` shows (ENResource.h:90) are not modelled; the tag is the one `mediaTagWithDataHash:mime:` builds from the hash and the MIME type.
- Enml.MediaTagWithDataHash: the MIME type is inserted as given, not XML-escaped; the header does not say whether it is escaped.
- BatchedFind.FindNotesMetadata: requires the service to return at least one note per request while matches remain (`cap(k) > 0`). A service that returns empty pages while matches remain would never finish.
- BatchedFind.FindNotesMetadata: offsets and sizes are unbounded integers, so the `int32_t` range of the service's offset is not modelled.
- Sessions.Session.NoteStoreForLinkedNotebook: the new client gets the primary token. Authenticating to a shared notebook (`authenticateToSharedNotebook`) is not modelled.
- Sessions.Session.NoteStoreForLinkedNotebook: the cache is keyed by the whole linked-notebook pointer (guid, store URL, shard, share id), so two pointers that differ only in their store URL get two clients.
- StoreClients.CreateBusinessNotebook: the implementation is not visible. The join record is built from the requested name, the new share's global id and the business account, which is this model's reading of "the user joins the notebook"; the service's case-insensitive name check is part of the creation outcome.
- Sessions.Session.Unauthenticate: the clients are dropped, but calls still queued on them are not completed with a NotAuthenticated error.
- Sessions.Session.BeginAuthentication: authenticating while already signed in starts a new authentication, which is this model's reading; the header asks for it only when `isAuthenticated` is NO. A failed or cancelled attempt then signs the user out, dropping the grant, every client and the preferences.
- Sessions.Session.CompleteAuthentication: which preferences survive a new sign-in is not visible, so a sign-in starts with an empty store.
- StoreClients.NoteStoreClient: the `noteStoreUrl` setter of `ENBusinessNoteStoreClient` is not modelled; the URL comes from the delegate.
- XmlWriting.XmlWriter: the `openElementCount` setter is not modelled, since setting it would break the count.
- XmlWriting.Dtd: `ENXMLDTD.h` is not part of this model. A DTD is reduced to its declared elements and their attributes, without content models.
- XmlWriting.XmlWriter.StartElementWithAttributes: the attributes come as a sequence in a fixed order, standing for the iteration order of the `NSDictionary`.
- XmlWriting.XmlWriter.StartElementWithAttributes: an attribute the DTD refuses is skipped and the element is still written. The header does not say whether the whole element is refused instead.
- XmlWriting.XmlWriter.EndElement: with no element open it writes nothing. An element with nothing written inside it is closed as `<x/>`, in the libxml2 style.
- XmlWriting.XmlWriter.Emit: every write hands the delegate one chunk, an empty one included; the header does not say whether empty chunks are reported.
- XmlWriting.XmlWriter.EndDocument: a CDATA section still open is not closed first. The end tags are written inside it and the section stays open; the header does not say what happens.
- XmlWriting.XmlWriter.WriteCDATA: the writer does not check that a CDATA section is open, nor that `]]>` does not occur inside it.
- FatFields: `ENTProtocol.h` is not part of this model. The container type codes are those of the Apache Thrift binary protocol.
- NoteRefs.AsData: the source archives with NSCoding, which is not visible. The byte format is this model's own; only the round trip and injectivity are claimed.
- NoteRefs.NoteRef: the `copy` of a ref and the copied `title` and `tagNames` of a note hold by value semantics, so they need no separate contract.
- SessionOptions.DecideUpload: the header says a notebook is "not valid" together with a note to replace. The model reads this as "ignored" rather than refused, which is weaker than rejecting the call.
- SessionOptions.DecideUpload: Replace with no note to replace fails with InvalidArgument. The header marks the note as optional and does not say what Replace does without one.
- SessionOptions.DecideUpload: ReplaceOrCreate with no note to replace creates the note in the given notebook. The header says a notebook is not valid with the replace policies, but does not say what happens when no note is given.
- SessionOptions.PlanSearch: a scope of None with no notebook is refused with InvalidArgument. The header says only that None is used with an explicit notebook.
- Sessions.Session.CompleteAuthentication: the authenticator is handed the setting when the authentication begins (evernote-sdk-ios/ENSDK/Private/ENOAuthAuthenticator.h:47), and the model requires that it reports a linked app notebook only when the setting was on. How the service honours the setting is not visible.
- Sessions.Session.SetSupportsLinkedAppNotebook: changing the setting after sign-in has no effect until the next authentication; a grant already obtained is reported as it is.
- SessionOptions.DecideUpload: when ReplaceOrCreate finds that the note to replace is gone, the new note goes to the default notebook (`CreateNote(None)`). The header does not say which notebook is used.

=== FILE: batched_find.dfy ===
/**
 * The private batched find of `ENNoteStoreClient (Private)`
 * (evernote-sdk-ios/ENSDK/Private/ENSDKPrivate.h:93-98): it asks the service for one
 * page of note metadata after another, each starting where the collected list ends,
 * until the matches are exhausted or `maxResults` entries are collected (zero meaning
 * all, as for `findNotesWithSearch`, evernote-sdk-ios/ENSDK/ENSession.h:374).
 *
 * The service is the page oracle `ServicePage`; `cap(k)` is how many notes the service
 * is willing to return to request `k` (counted from 0, never zero, and free to differ
 * from request to request); `batchSize` is the client's page size and
 * `serverFailure`, when present, names the request that the service fails and the
 * error it fails with. A failure is reported through the single
 * failure block: the pages collected before it are not delivered.
 */
module BatchedFind {
  import opened Common
  import opened NoteStoreOptions
  import opened SessionOptions

  /** How many notes the next request asks for, given how many are already collected. */
  function NextRequestSize(maxResults: nat, collected: nat, batchSize: nat): (n: nat)
    requires maxResults == 0 || collected < maxResults
    ensures n <= batchSize
    ensures maxResults > 0 ==> collected + n <= maxResults
    ensures batchSize > 0 ==> n > 0
  {
    if maxResults == 0 then batchSize else Min(batchSize, maxResults - collected)
  }

  method FindNotesMetadata<T>(matches: seq<T>, maxResults: nat, batchSize: nat, cap: nat -> nat,
                              serverFailure: Option<(nat, ENError)>)
    returns (r: Outcome<seq<T>>, requests: nat)
    requires batchSize > 0 && forall k :: cap(k) > 0
    ensures r.Success? ==> r.value == matches[..ResultLimit(maxResults, |matches|)]
    ensures r.Success? ==> maxResults > 0 ==> |r.value| <= maxResults
    ensures r.Failure? <==> serverFailure.Some? && serverFailure.value.0 < requests
    ensures r.Failure? ==> r.error == serverFailure.value.1 && requests == serverFailure.value.0 + 1
    ensures 1 <= requests <= ResultLimit(maxResults, |matches|) + 1
  {
    var limit := ResultLimit(maxResults, |matches|);
    var results: seq<T> := [];
    requests := 0;
    while true
      invariant |results| <= limit <= |matches|
      invariant results == matches[..|results|]
      invariant requests <= |results|
      invariant maxResults > 0 ==> |results| < maxResults
      invariant |results| < |matches| || requests == 0
      invariant serverFailure.None? || serverFailure.value.0 >= requests
      decreases limit - |results|
    {
      var want := NextRequestSize(maxResults, |results|, batchSize);
      if serverFailure.Some? && serverFailure.value.0 == requests {
        requests := requests + 1;
        return Failure(serverFailure.value.1), requests;
      }
      var page := ServicePage(matches, |results|, want, cap(requests));
      requests := requests + 1;
      results := results + page.notes;
      if !(HasMore(page) && (maxResults == 0 || |results| < maxResults)) {
        break;
      }
    }
    r := Success(results);
  }
}

=== FILE: common.dfy ===
/**
 * Value types shared by the whole model: optional values, bytes, the fixed-width
 * integers of the Objective-C declarations, and the error taxonomy that every
 * completion block of the SDK can report.
 */
module Common {

  /** An Objective-C nullable object: `nil` or a value. */
  datatype Option<+T> = None | Some(value: T)

  /** An octet of an `NSData`. */
  newtype byte = x: int | 0 <= x < 256

  /** `int32_t`, the width of offsets, counts and USNs in the note store API. */
  newtype int32 = x: int | -0x8000_0000 <= x < 0x8000_0000

  /** `uint32_t`, the width of the Thrift field descriptor's members. */
  newtype uint32 = x: int | 0 <= x < 0x1_0000_0000

  /** `NSUInteger` on a 64-bit device, as a bit set. */
  type word = bv64

  /** Kinds of application-level exceptions a service call can report. */
  datatype ServiceErrorKind =
    | PermissionDenied
    | NotFound
    | RateLimited(retryAfterSeconds: nat)
    | QuotaReached
    | DataConflict
    | InvalidData
    | OtherServiceError(code: int)

  /** The failure of an SDK operation, as delivered in the `NSError` of a completion block. */
  datatype ENError =
    | TransportError
    | ProtocolError
    | ApplicationError(kind: ServiceErrorKind, message: string)
    | Cancelled
    | NotAuthenticated
    | NotABusinessMember
    | AuthenticationInProgress
    | InvalidArgument(reason: string)

  /** Either a value or an error, never both. */
  datatype Outcome<+T> = Success(value: T) | Failure(error: ENError)

  function Min(a: int, b: int): (r: int)
    ensures r <= a && r <= b && (r == a || r == b)
  {
    if a <= b then a else b
  }
}

=== FILE: enml.dfy ===
/**
 * The `en-media` tag of `ENMLUtility`
 * (evernote-sdk-ios/ENSDK/Advanced/Utilities/ENMLUtility.h:35-41): a resource is
 * referenced from note content by its MIME type and the lowercase hexadecimal
 * form of the MD5 hash of its data.
 */
module Enml {
  import opened Common

  const HexDigits: string := "0123456789abcdef"

  predicate IsLowerHexDigit(c: char) {
    ('0' <= c <= '9') || ('a' <= c <= 'f')
  }

  function HexDigit(n: nat): (c: char)
    requires n < 16
    ensures IsLowerHexDigit(c)
  {
    HexDigits[n]
  }

  /** The value of a hexadecimal digit; either case is read. */
  function HexValue(c: char): (r: Option<nat>)
    ensures r.Some? ==> r.value < 16
  {
    if '0' <= c <= '9' then Some(c as int - '0' as int)
    else if 'a' <= c <= 'f' then Some(c as int - 'a' as int + 10)
    else if 'A' <= c <= 'F' then Some(c as int - 'A' as int + 10)
    else None
  }

  lemma HexDigitValue(n: nat)
    requires n < 16
    ensures HexValue(HexDigit(n)) == Some(n)
  {
  }

  /** Two digits per byte, most significant first, lowercase. */
  function HexEncode(h: seq<byte>): (s: string)
    ensures |s| == 2 * |h|
    ensures forall i :: 0 <= i < |s| ==> IsLowerHexDigit(s[i])
  {
    if h == [] then []
    else [HexDigit(h[0] as nat / 16), HexDigit(h[0] as nat % 16)] + HexEncode(h[1..])
  }

  function HexDecode(s: string): Option<seq<byte>>
    decreases |s|
  {
    if s == [] then Some([])
    else if |s| < 2 then None
    else match (HexValue(s[0]), HexValue(s[1]), HexDecode(s[2..]))
      case (Some(hi), Some(lo), Some(rest)) => Some([(hi * 16 + lo) as byte] + rest)
      case _ => None
  }

  /** A byte's two digits decode to that byte, in front of whatever follows them. */
  lemma HexDecodeByte(b: byte, rest: string)
    ensures HexDecode([HexDigit(b as nat / 16), HexDigit(b as nat % 16)] + rest)
      == if HexDecode(rest).Some? then Some([b] + HexDecode(rest).value) else None
  {
    var hi, lo := b as nat / 16, b as nat % 16;
    var s := [HexDigit(hi), HexDigit(lo)] + rest;
    assert s[0] == HexDigit(hi) && s[1] == HexDigit(lo) && s[2..] == rest;
    HexDigitValue(hi);
    HexDigitValue(lo);
    assert (hi * 16 + lo) as byte == b;
  }

  /** Hex-decoding the encoding gives back the hash. */
  lemma {:induction false} HexRoundTrip(h: seq<byte>)
    ensures HexDecode(HexEncode(h)) == Some(h)
    decreases |h|
  {
    if h != [] {
      HexDecodeByte(h[0], HexEncode(h[1..]));
      HexRoundTrip(h[1..]);
      assert [h[0]] + h[1..] == h;
    }
  }

  /** An MD5 hash (16 bytes) is written as 32 characters. */
  lemma Md5HashIs32Characters(h: seq<byte>)
    requires |h| == 16
    ensures |HexEncode(h)| == 32
  {
  }

  const MediaTagPrefix: string := "<en-media type=\""
  const MediaTagMiddle: string := "\" hash=\""
  const MediaTagSuffix: string := "\"/>"

  /** `mediaTagWithDataHash:mime:`. */
  function MediaTagWithDataHash(dataHash: seq<byte>, mime: string): (tag: string)
    ensures |tag| == |MediaTagPrefix| + |mime| + |MediaTagMiddle| + 2 * |dataHash| + |MediaTagSuffix|
  {
    MediaTagPrefix + mime + MediaTagMiddle + HexEncode(dataHash) + MediaTagSuffix
  }

  /** The `type` attribute's value, read back from a tag for a MIME type of `mimeLength` characters. */
  function TypeAttributeOf(tag: string, mimeLength: nat): string
    requires |tag| >= |MediaTagPrefix| + mimeLength
  {
    tag[|MediaTagPrefix|..|MediaTagPrefix| + mimeLength]
  }

  /** The `hash` attribute's value, read back from a tag for a MIME type of `mimeLength` characters. */
  function HashAttributeOf(tag: string, mimeLength: nat): string
    requires |tag| >= |MediaTagPrefix| + mimeLength + |MediaTagMiddle| + |MediaTagSuffix|
  {
    tag[|MediaTagPrefix| + mimeLength + |MediaTagMiddle|..|tag| - |MediaTagSuffix|]
  }

  /** Where each of five pieces sits in their concatenation. */
  lemma PiecesOfTag(a: string, b: string, c: string, d: string, e: string)
    ensures var t := a + b + c + d + e;
      && t[..|a|] == a
      && t[|a|..|a| + |b|] == b
      && t[|a| + |b| + |c|..|t| - |e|] == d
  {
    var t := a + b + c + d + e;
    assert t == a + (b + c + d + e);
    assert t == (a + b) + (c + d + e);
    assert t[..|a| + |b|] == a + b;
    var p := a + b + c;
    assert t[..|p| + |d|] == p + d;
  }

  /** The tag's `type` is the MIME type and its `hash` decodes to the data hash. */
  lemma MediaTagAttributes(dataHash: seq<byte>, mime: string)
    ensures var tag := MediaTagWithDataHash(dataHash, mime);
      && tag[..|MediaTagPrefix|] == MediaTagPrefix
      && TypeAttributeOf(tag, |mime|) == mime
      && HashAttributeOf(tag, |mime|) == HexEncode(dataHash)
      && HexDecode(HashAttributeOf(tag, |mime|)) == Some(dataHash)
  {
    PiecesOfTag(MediaTagPrefix, mime, MediaTagMiddle, HexEncode(dataHash), MediaTagSuffix);
    HexRoundTrip(dataHash);
  }

  /** Distinct hashes give distinct tags. */
  lemma MediaTagInjective(h1: seq<byte>, h2: seq<byte>, mime: string)
    requires MediaTagWithDataHash(h1, mime) == MediaTagWithDataHash(h2, mime)
    ensures h1 == h2
  {
    MediaTagAttributes(h1, mime);
    MediaTagAttributes(h2, mime);
    assert Some(h1) == HexDecode(HashAttributeOf(MediaTagWithDataHash(h1, mime), |mime|)) == Some(h2);
  }
}

/**
 * `ENResource` (evernote-sdk-ios/ENSDK/ENResource.h:37-94): the data of an
 * attachment with its MIME type and an optional filename.
 */
module Resources {
  import opened Common
  import Enml

  datatype Resource = Resource(data: seq<byte>, mimeType: string, filename: Option<string>)

  const PngMimeType: string := "image/png"
  const JpegMimeType: string := "image/jpeg"

  /** `initWithData:mimeType:filename:`, the designated initializer. */
  function InitWithDataMimeTypeFilename(data: seq<byte>, mimeType: string, filename: Option<string>): (r: Resource)
    ensures r.data == data && r.mimeType == mimeType && r.filename == filename
  {
    Resource(data, mimeType, filename)
  }

  /** `initWithData:mimeType:`. */
  function InitWithDataMimeType(data: seq<byte>, mimeType: string): (r: Resource)
    ensures r.data == data && r.mimeType == mimeType && r.filename.None?
  {
    InitWithDataMimeTypeFilename(data, mimeType, None)
  }

  /**
   * `initWithImage:`, given the image's PNG and JPEG encodings: keeps the smaller
   * and labels it with the matching MIME type (PNG when they are the same size).
   */
  function InitWithImage(png: seq<byte>, jpeg: seq<byte>): (r: Resource)
    ensures |r.data| == Min(|png|, |jpeg|)
    ensures (r.data == png && r.mimeType == PngMimeType) || (r.data == jpeg && r.mimeType == JpegMimeType)
    ensures r.mimeType == PngMimeType <==> |png| <= |jpeg|
    ensures r.filename.None?
  {
    if |png| <= |jpeg| then InitWithDataMimeType(png, PngMimeType) else InitWithDataMimeType(jpeg, JpegMimeType)
  }

  /** Whichever encoding is kept, no smaller one was available. */
  lemma ImageKeepsSmallerEncoding(png: seq<byte>, jpeg: seq<byte>)
    ensures |InitWithImage(png, jpeg).data| <= |png| && |InitWithImage(png, jpeg).data| <= |jpeg|
    ensures InitWithImage(png, jpeg).mimeType == JpegMimeType ==> |jpeg| < |png|
  {
  }

  /**
   * `mediaTag`, given `dataHash`, the MD5 hash of the resource's data
   * (`ENResource (Advanced).dataHash`).
   */
  function MediaTag(r: Resource, dataHash: seq<byte>): (tag: string)
    ensures tag == Enml.MediaTagWithDataHash(dataHash, r.mimeType)
    ensures Enml.TypeAttributeOf(tag, |r.mimeType|) == r.mimeType
    ensures Enml.HexDecode(Enml.HashAttributeOf(tag, |r.mimeType|)) == Some(dataHash)
  {
    Enml.MediaTagAttributes(dataHash, r.mimeType);
    Enml.MediaTagWithDataHash(dataHash, r.mimeType)
  }
}

/**
 * `ENNoteContent` made from ENML
 * (evernote-sdk-ios/ENSDK/Advanced/ENSDKAdvanced.h:175-202). The other ways of
 * making content (plain string, content array, sanitized HTML) are not modelled.
 */
module NoteContents {
  datatype NoteContent = FromEnml(source: string)

  /** `noteContentWithENML:` and `initWithENML:`; the ENML is not checked until upload. */
  function NoteContentWithEnml(enml: string): (c: NoteContent)
    ensures Enml(c) == enml
  {
    FromEnml(enml)
  }

  /** `enml`. */
  function Enml(c: NoteContent): string {
    match c
    case FromEnml(source) => source
  }

  /** Content is rebuilt from its ENML: `enml` and `noteContentWithENML:` are inverse. */
  lemma ContentFromItsEnml(c: NoteContent)
    ensures NoteContentWithEnml(Enml(c)) == c
  {
  }

  /** Content made from ENML is told apart by its ENML alone. */
  lemma EnmlDeterminesContent(a: string, b: string)
    requires NoteContentWithEnml(a) == NoteContentWithEnml(b)
    ensures a == b
  {
    assert Enml(NoteContentWithEnml(a)) == a;
  }
}

=== FILE: fat_field.dfy ===
/**
 * `FATField` (evernote-sdk-ios/ENSDK/Private/3rdParty/Thrift/FATField.h:33-73): the
 * description of one field of a Thrift struct, made by one of three factories.
 *
 * `ENTProtocol.h` is not part of this model; the container type codes are those of
 * the Apache Thrift binary protocol (STRUCT 12, MAP 13, SET 14, LIST 15). A property
 * a factory does not set keeps its zero value (0 or nil). The element types passed
 * as C `int` are stored in `uint32_t` properties, so negative values wrap modulo 2^32.
 */
module FatFields {
  import opened Common

  const TypeStruct: uint32 := 12
  const TypeMap: uint32 := 13
  const TypeSet: uint32 := 14
  const TypeList: uint32 := 15

  datatype FatField = FatField(
    index: uint32,
    fieldType: uint32,
    optional: bool,
    name: string,
    valueType: uint32,
    /** A class name; nil when absent. */
    valueClass: Option<string>,
    keyType: uint32,
    keyClass: Option<string>)

  /** The C conversion of an `int` argument to a `uint32_t` property. */
  function ToUInt32(i: int32): (u: uint32)
    ensures i >= 0 ==> u as int == i as int
    ensures i < 0 ==> u as int == i as int + 0x1_0000_0000
  {
    if i < 0 then (i as int + 0x1_0000_0000) as uint32 else i as int as uint32
  }

  /** The conversion loses nothing: different arguments are stored differently. */
  lemma ToUInt32Injective(a: int32, b: int32)
    requires ToUInt32(a) == ToUInt32(b)
    ensures a == b
  {
  }

  /** Types whose field descriptors carry a value type: SET, LIST, MAP and STRUCT. */
  predicate HasValueType(t: uint32) {
    t == TypeSet || t == TypeList || t == TypeMap || t == TypeStruct
  }

  /** Types whose field descriptors carry a key type: MAP only. */
  predicate HasKeyType(t: uint32) {
    t == TypeMap
  }

  /** A descriptor sets the value and key parts only where its type gives them a meaning. */
  predicate Applicable(f: FatField) {
    && (!HasValueType(f.fieldType) ==> f.valueType == 0 && f.valueClass.None?)
    && (!HasKeyType(f.fieldType) ==> f.keyType == 0 && f.keyClass.None?)
  }

  /** `fieldWithIndex:type:optional:name:`. */
  function FieldWithIndex(index: uint32, fieldType: uint32, optional: bool, name: string): (f: FatField)
    ensures f.index == index && f.fieldType == fieldType && f.optional == optional && f.name == name
    ensures f.valueType == 0 && f.valueClass.None? && f.keyType == 0 && f.keyClass.None?
    ensures Applicable(f)
  {
    FatField(index, fieldType, optional, name, 0, None, 0, None)
  }

  /** `fieldWithIndex:type:optional:name:valueType:valueClass:`, meant for SET, LIST, MAP and STRUCT. */
  function FieldWithValueType(index: uint32, fieldType: uint32, optional: bool, name: string,
                              valueType: int32, valueClass: Option<string>): (f: FatField)
    ensures f.index == index && f.fieldType == fieldType && f.optional == optional && f.name == name
    ensures f.valueType == ToUInt32(valueType) && f.valueClass == valueClass
    ensures f.keyType == 0 && f.keyClass.None?
    ensures HasValueType(fieldType) ==> Applicable(f)
  {
    FatField(index, fieldType, optional, name, ToUInt32(valueType), valueClass, 0, None)
  }

  /** `fieldWithIndex:type:optional:name:keyType:keyClass:valueType:valueClass:`, meant for MAP. */
  function FieldWithKeyType(index: uint32, fieldType: uint32, optional: bool, name: string,
                            keyType: int32, keyClass: Option<string>,
                            valueType: int32, valueClass: Option<string>): (f: FatField)
    ensures f.index == index && f.fieldType == fieldType && f.optional == optional && f.name == name
    ensures f.valueType == ToUInt32(valueType) && f.valueClass == valueClass
    ensures f.keyType == ToUInt32(keyType) && f.keyClass == keyClass
    ensures HasKeyType(fieldType) ==> Applicable(f)
  {
    FatField(index, fieldType, optional, name, ToUInt32(valueType), valueClass, ToUInt32(keyType), keyClass)
  }

  /** The four common properties as a descriptor records them. */
  function Header(f: FatField): (uint32, uint32, bool, string) {
    (f.index, f.fieldType, f.optional, f.name)
  }

  /** All three factories record index, type, optional and name the same way. */
  lemma FactoriesAgree(index: uint32, fieldType: uint32, optional: bool, name: string,
                       keyType: int32, keyClass: Option<string>, valueType: int32, valueClass: Option<string>)
    ensures Header(FieldWithValueType(index, fieldType, optional, name, valueType, valueClass))
      == Header(FieldWithIndex(index, fieldType, optional, name))
    ensures Header(FieldWithKeyType(index, fieldType, optional, name, keyType, keyClass, valueType, valueClass))
      == Header(FieldWithIndex(index, fieldType, optional, name))
  {
  }

  /**
   * The factories nest: the key factory with no key part is the value factory, and the
   * value factory with no value part is the plain one.
   */
  lemma FactoriesNest(index: uint32, fieldType: uint32, optional: bool, name: string,
                      valueType: int32, valueClass: Option<string>)
    ensures FieldWithKeyType(index, fieldType, optional, name, 0, None, valueType, valueClass)
      == FieldWithValueType(index, fieldType, optional, name, valueType, valueClass)
    ensures FieldWithValueType(index, fieldType, optional, name, 0, None) == FieldWithIndex(index, fieldType, optional, name)
  {
  }

  /** The value factory on a type without elements sets parts that type never reads. */
  lemma ValueTypeOutsideContainersIsNotApplicable(index: uint32, fieldType: uint32, optional: bool, name: string,
                                                  valueType: int32, valueClass: Option<string>)
    requires !HasValueType(fieldType) && (valueType != 0 || valueClass.Some?)
    ensures !Applicable(FieldWithValueType(index, fieldType, optional, name, valueType, valueClass))
  {
  }
}

=== FILE: flags.dfy ===
/**
 * The bit-twiddling macros `EN_FLAG_ISSET`, `EN_FLAG_SET` and `EN_FLAG_CLEAR`
 * (evernote-sdk-ios/ENSDK/Private/ENSDKPrivate.h:114-116), on 64-bit words.
 *
 * `EN_FLAG_ISSET(v, f)` is the C expression `!!((v) & (f))`: 1 when any bit of
 * `f` is set in `v`, 0 otherwise. `EN_FLAG_SET` and `EN_FLAG_CLEAR` assign to
 * their first argument; `FlagWord` is that assignable variable.
 */
module EnFlags {
  import opened Common

  /** `EN_FLAG_ISSET(v, f)`: the C int 1 or 0. */
  function IsSet(v: word, f: word): (r: int)
    ensures r == 0 || r == 1
    ensures r == 1 <==> v & f != 0
  {
    if v & f != 0 then 1 else 0
  }

  /** The value `EN_FLAG_SET(v, f)` stores into `v`. */
  function SetBits(v: word, f: word): (r: word)
    ensures r & f == f
    ensures r & !f == v & !f
  {
    v | f
  }

  /** The value `EN_FLAG_CLEAR(v, f)` stores into `v`. */
  function ClearBits(v: word, f: word): (r: word)
    ensures r & f == 0
    ensures r & !f == v & !f
  {
    v & !f
  }

  /** Two words agree outside the bits of `f`. */
  predicate SameOutside(a: word, b: word, f: word) {
    a & !f == b & !f
  }

  /** After `EN_FLAG_SET(v, f)` with a non-empty `f`, `EN_FLAG_ISSET(v, f)` holds. */
  lemma SetThenIsSet(v: word, f: word)
    requires f != 0
    ensures IsSet(SetBits(v, f), f) == 1
  {
    assert SetBits(v, f) & f == f;
  }

  /** With an empty mask the macro reports 0 even after setting: the mask picks no bit. */
  lemma EmptyMaskNeverSet(v: word)
    ensures IsSet(SetBits(v, 0), 0) == 0
  {
  }

  /** After `EN_FLAG_CLEAR(v, f)`, `EN_FLAG_ISSET(v, f)` is 0. */
  lemma ClearThenNotSet(v: word, f: word)
    ensures IsSet(ClearBits(v, f), f) == 0
  {
    assert ClearBits(v, f) & f == 0;
  }

  /** Both assignments leave every bit outside `f` as it was. */
  lemma SetClearKeepOtherBits(v: word, f: word)
    ensures SameOutside(SetBits(v, f), v, f)
    ensures SameOutside(ClearBits(v, f), v, f)
  {
  }

  /** Setting or clearing twice is the same as once. */
  lemma SetClearIdempotent(v: word, f: word)
    ensures SetBits(SetBits(v, f), f) == SetBits(v, f)
    ensures ClearBits(ClearBits(v, f), f) == ClearBits(v, f)
  {
  }

  /** Clearing undoes setting for bits that were clear, and the reverse. */
  lemma SetClearInverse(v: word, f: word)
    ensures v & f == 0 ==> ClearBits(SetBits(v, f), f) == v
    ensures v & f == f ==> SetBits(ClearBits(v, f), f) == v
  {
  }

  /** `EN_FLAG_ISSET` asks whether ANY bit of the mask is set, not all of them. */
  lemma IsSetMeansAnyBit(v: word, f: word, g: word)
    requires v & f != 0
    ensures IsSet(v, f | g) == 1
  {
    assert v & (f | g) == (v & f) | (v & g);
  }

  /** A variable of flag type that the two assigning macros update in place. */
  class FlagWord {
    var bits: word

    constructor (initial: word)
      ensures bits == initial
    {
      bits := initial;
    }

    /** `EN_FLAG_ISSET(bits, f)`. */
    function IsSetIn(f: word): int
      reads this
    {
      IsSet(bits, f)
    }

    /** `EN_FLAG_SET(bits, f)`: the value of the C assignment expression is returned too. */
    method Set(f: word) returns (r: word)
      modifies this
      ensures bits == SetBits(old(bits), f) && r == bits
      ensures f != 0 ==> IsSetIn(f) == 1
      ensures SameOutside(bits, old(bits), f)
    {
      bits := SetBits(bits, f);
      r := bits;
      if f != 0 {
        SetThenIsSet(old(bits), f);
      }
    }

    /** `EN_FLAG_CLEAR(bits, f)`. */
    method Clear(f: word) returns (r: word)
      modifies this
      ensures bits == ClearBits(old(bits), f) && r == bits
      ensures IsSetIn(f) == 0
      ensures SameOutside(bits, old(bits), f)
    {
      bits := ClearBits(bits, f);
      r := bits;
      ClearThenNotSet(old(bits), f);
    }
  }
}

=== FILE: note.dfy ===
/**
 * `ENNote` (evernote-sdk-ios/ENSDK/ENNote.h:40-51): a note being prepared for upload
 * or downloaded, with its title, content, tags, reminder flag and its own list of
 * resources, which only `addResource:` and `removeAllResources` change.
 *
 * Strings and arrays are values here, so the `copy` semantics of `title` and
 * `tagNames` hold by construction: a setter stores the value it is given and no
 * later change on the caller's side can reach it.
 */
module Notes {
  import opened Common
  import Resources
  import NoteContents

  class Note {
    var title: string
    var content: Option<NoteContents.NoteContent>
    var tagNames: seq<string>
    var isReminder: bool
    var resourceList: seq<Resources.Resource>

    constructor ()
      ensures title == [] && content.None? && tagNames == [] && !isReminder && resourceList == []
    {
      title := [];
      content := None;
      tagNames := [];
      isReminder := false;
      resourceList := [];
    }

    /** `resources`. */
    function Resources(): seq<Resources.Resource>
      reads this
    {
      resourceList
    }

    /** `addResource:`: the resource goes at the end; those before it are untouched. */
    method AddResource(r: Resources.Resource)
      modifies this
      ensures resourceList == old(resourceList) + [r]
      ensures |resourceList| == |old(resourceList)| + 1
      ensures resourceList[..|old(resourceList)|] == old(resourceList) && resourceList[|resourceList| - 1] == r
      ensures title == old(title) && content == old(content) && tagNames == old(tagNames) && isReminder == old(isReminder)
    {
      resourceList := resourceList + [r];
    }

    /** `removeAllResources`. */
    method RemoveAllResources()
      modifies this
      ensures resourceList == []
      ensures title == old(title) && content == old(content) && tagNames == old(tagNames) && isReminder == old(isReminder)
    {
      resourceList := [];
    }

    method SetTitle(t: string)
      modifies this
      ensures title == t
      ensures content == old(content) && tagNames == old(tagNames) && isReminder == old(isReminder)
      ensures resourceList == old(resourceList)
    {
      title := t;
    }

    method SetTagNames(tags: seq<string>)
      modifies this
      ensures tagNames == tags
      ensures title == old(title) && content == old(content) && isReminder == old(isReminder)
      ensures resourceList == old(resourceList)
    {
      tagNames := tags;
    }

    method SetContent(c: Option<NoteContents.NoteContent>)
      modifies this
      ensures content == c
      ensures title == old(title) && tagNames == old(tagNames) && isReminder == old(isReminder)
      ensures resourceList == old(resourceList)
    {
      content := c;
    }

    method SetIsReminder(b: bool)
      modifies this
      ensures isReminder == b
      ensures title == old(title) && content == old(content) && tagNames == old(tagNames)
      ensures resourceList == old(resourceList)
    {
      isReminder := b;
    }
  }
}

=== FILE: note_ref.dfy ===
/**
 * `ENNoteRef` (evernote-sdk-ios/ENSDK/ENNoteRef.h): an immutable reference to a note
 * in any notebook the user can reach, with its `asData` / `noteRefFromData:` pair.
 *
 * The fields follow `ENNoteRefInternal.h` and `ENLinkedNotebookRef.h`, which are not
 * part of this model: a kind (personal, business, shared), the note's guid, and for
 * notes outside the personal store a pointer to the linked notebook. The archive
 * format of the source (NSCoding) is not visible either; `AsData` is a byte format of
 * this model's own: a kind byte, then strings as three-byte code points closed by
 * 0xFF, then an optional linked-notebook pointer.
 */
module NoteRefs {
  import opened Common
  import Edam
  import Notebooks

  datatype NoteRefType = PersonalRef | BusinessRef | SharedRef

  datatype LinkedNotebookRef = LinkedNotebookRef(
    guid: string,
    noteStoreUrl: string,
    shardId: string,
    sharedNotebookGlobalId: Option<string>)

  datatype NoteRef = NoteRef(refType: NoteRefType, guid: string, linkedNotebook: Option<LinkedNotebookRef>)

  /** The pointer a note ref keeps for a linked-notebook record. */
  function LinkedRefOf(ln: Edam.LinkedNotebook): (r: LinkedNotebookRef)
    ensures r.guid == ln.guid && r.noteStoreUrl == ln.noteStoreUrl
    ensures r.shardId == ln.shardId && r.sharedNotebookGlobalId == ln.sharedNotebookGlobalId
  {
    LinkedNotebookRef(ln.guid, ln.noteStoreUrl, ln.shardId, ln.sharedNotebookGlobalId)
  }

  /**
   * The ref of the note `noteGuid` found in notebook `nb`: personal notebooks give a
   * personal ref, business notebooks a business ref and other linked notebooks a
   * shared ref, both carrying the linked notebook.
   */
  function NoteRefInNotebook(noteGuid: string, nb: Notebooks.ENNotebook): (r: NoteRef)
    ensures r.guid == noteGuid
    ensures r.refType == PersonalRef <==> !nb.IsLinked()
    ensures r.refType == BusinessRef <==> nb.IsBusinessNotebook()
    ensures nb.IsLinked() ==> r.linkedNotebook == Some(LinkedRefOf(nb.linkedNotebook.value))
    ensures !nb.IsLinked() ==> r.linkedNotebook.None?
  {
    if nb.IsBusinessNotebook() then NoteRef(BusinessRef, noteGuid, Some(LinkedRefOf(nb.linkedNotebook.value)))
    else if nb.IsLinked() then NoteRef(SharedRef, noteGuid, Some(LinkedRefOf(nb.linkedNotebook.value)))
    else NoteRef(PersonalRef, noteGuid, None)
  }

  // ---- Serialisation ----

  const EndOfString: byte := 0xFF

  /** A Unicode scalar value, the range of Dafny's `char`. */
  predicate IsScalar(v: int) {
    (0 <= v < 0xD800) || (0xE000 <= v < 0x11_0000)
  }

  function EncodeChar(c: char): (r: seq<byte>)
    ensures |r| == 3 && r[0] != EndOfString
  {
    var v := c as int;
    var rest := v % 0x1_0000;
    [(v / 0x1_0000) as byte, (rest / 0x100) as byte, (rest % 0x100) as byte]
  }

  function DecodeCodePoint(b0: byte, b1: byte, b2: byte): int {
    b0 as int * 0x1_0000 + b1 as int * 0x100 + b2 as int
  }

  lemma CharRoundTrip(c: char)
    ensures var e := EncodeChar(c); DecodeCodePoint(e[0], e[1], e[2]) == c as int
  {
    var v := c as int;
    assert v == (v / 0x1_0000) * 0x1_0000 + v % 0x1_0000;
    var rest := v % 0x1_0000;
    assert rest == (rest / 0x100) * 0x100 + rest % 0x100;
  }

  function EncodeString(s: string): (r: seq<byte>)
    ensures |r| == 3 * |s| + 1
  {
    if s == [] then [EndOfString] else EncodeChar(s[0]) + EncodeString(s[1..])
  }

  /** Reads one string from the front of `d`; yields it with what follows. */
  function DecodeString(d: seq<byte>): (r: Option<(string, seq<byte>)>)
    ensures r.Some? ==> |r.value.1| < |d|
    decreases |d|
  {
    if |d| == 0 then None
    else if d[0] == EndOfString then Some(([], d[1..]))
    else if |d| < 3 then None
    else
      var v := DecodeCodePoint(d[0], d[1], d[2]);
      if !IsScalar(v) then None
      else match DecodeString(d[3..])
        case None => None
        case Some((s, rest)) => Some(([v as char] + s, rest))
  }

  lemma {:induction false} StringRoundTrip(s: string, rest: seq<byte>)
    ensures DecodeString(EncodeString(s) + rest) == Some((s, rest))
    decreases |s|
  {
    if s == [] {
      assert EncodeString(s) + rest == [EndOfString] + rest;
    } else {
      var e := EncodeChar(s[0]);
      var after := EncodeString(s[1..]) + rest;
      var d := EncodeString(s) + rest;
      assert d == e + after;
      assert d[0] == e[0] && d[1] == e[1] && d[2] == e[2] && d[3..] == after;
      CharRoundTrip(s[0]);
      var v := DecodeCodePoint(d[0], d[1], d[2]);
      assert v == s[0] as int && IsScalar(v) && v as char == s[0];
      StringRoundTrip(s[1..], rest);
      assert [s[0]] + s[1..] == s;
    }
  }

  function EncodeOptString(o: Option<string>): seq<byte> {
    match o
    case None => [0]
    case Some(s) => [1] + EncodeString(s)
  }

  function DecodeOptString(d: seq<byte>): (r: Option<(Option<string>, seq<byte>)>)
    ensures r.Some? ==> |r.value.1| < |d|
  {
    if |d| == 0 then None
    else if d[0] == 0 then Some((None, d[1..]))
    else if d[0] == 1 then
      match DecodeString(d[1..])
      case None => None
      case Some((s, rest)) => Some((Some(s), rest))
    else None
  }

  lemma OptStringRoundTrip(o: Option<string>, rest: seq<byte>)
    ensures DecodeOptString(EncodeOptString(o) + rest) == Some((o, rest))
  {
    var d := EncodeOptString(o) + rest;
    if o.Some? {
      assert d == [1] + (EncodeString(o.value) + rest);
      assert d[0] == 1 && d[1..] == EncodeString(o.value) + rest;
      StringRoundTrip(o.value, rest);
      assert DecodeString(d[1..]) == Some((o.value, rest));
    } else {
      assert d[0] == 0 && d[1..] == rest;
    }
  }

  function EncodeLinked(l: LinkedNotebookRef): seq<byte> {
    EncodeString(l.guid) + EncodeString(l.noteStoreUrl) + EncodeString(l.shardId)
      + EncodeOptString(l.sharedNotebookGlobalId)
  }

  function DecodeLinked(d: seq<byte>): Option<(LinkedNotebookRef, seq<byte>)> {
    match DecodeString(d)
    case None => None
    case Some((guid, d1)) =>
      match DecodeString(d1)
      case None => None
      case Some((url, d2)) =>
        match DecodeString(d2)
        case None => None
        case Some((shard, d3)) =>
          match DecodeOptString(d3)
          case None => None
          case Some((gid, d4)) => Some((LinkedNotebookRef(guid, url, shard, gid), d4))
  }

  lemma RegroupLinked(a: seq<byte>, b: seq<byte>, c: seq<byte>, d: seq<byte>, rest: seq<byte>)
    ensures a + b + c + d + rest == a + (b + (c + (d + rest)))
  {
  }

  lemma LinkedRoundTrip(l: LinkedNotebookRef, rest: seq<byte>)
    ensures DecodeLinked(EncodeLinked(l) + rest) == Some((l, rest))
  {
    var e3 := EncodeOptString(l.sharedNotebookGlobalId) + rest;
    var e2 := EncodeString(l.shardId) + e3;
    var e1 := EncodeString(l.noteStoreUrl) + e2;
    RegroupLinked(EncodeString(l.guid), EncodeString(l.noteStoreUrl), EncodeString(l.shardId),
            EncodeOptString(l.sharedNotebookGlobalId), rest);
    assert EncodeLinked(l) + rest == EncodeString(l.guid) + e1;
    StringRoundTrip(l.guid, e1);
    StringRoundTrip(l.noteStoreUrl, e2);
    StringRoundTrip(l.shardId, e3);
    OptStringRoundTrip(l.sharedNotebookGlobalId, rest);
  }

  function TypeTag(t: NoteRefType): byte {
    match t
    case PersonalRef => 0
    case BusinessRef => 1
    case SharedRef => 2
  }

  function TypeOfTag(b: byte): Option<NoteRefType> {
    if b == 0 then Some(PersonalRef)
    else if b == 1 then Some(BusinessRef)
    else if b == 2 then Some(SharedRef)
    else None
  }

  /** The trailing part of a serialised ref: absent, or a marker and the linked pointer. */
  function EncodeTail(o: Option<LinkedNotebookRef>): seq<byte> {
    match o
    case None => [0]
    case Some(l) => [1] + EncodeLinked(l)
  }

  /** Reads the trailing part; it must take up the rest of the data. */
  function DecodeTail(d: seq<byte>): Option<Option<LinkedNotebookRef>> {
    if |d| == 0 then None
    else if d[0] == 0 then (if |d| == 1 then Some(None) else None)
    else if d[0] == 1 then
      match DecodeLinked(d[1..])
      case None => None
      case Some((l, rest)) => if rest == [] then Some(Some(l)) else None
    else None
  }

  lemma TailRoundTrip(o: Option<LinkedNotebookRef>)
    ensures DecodeTail(EncodeTail(o)) == Some(o)
  {
    if o.Some? {
      var t := EncodeTail(o);
      assert t[0] == 1 && t[1..] == EncodeLinked(o.value) + [];
      LinkedRoundTrip(o.value, []);
    }
  }

  /** `asData`. */
  function AsData(r: NoteRef): (d: seq<byte>)
    ensures |d| > 0 && d[0] == TypeTag(r.refType)
  {
    [TypeTag(r.refType)] + EncodeString(r.guid) + EncodeTail(r.linkedNotebook)
  }

  /** `noteRefFromData:`: nil (None) for data that is not a serialised note ref. */
  function NoteRefFromData(d: seq<byte>): (r: Option<NoteRef>)
    ensures r.Some? ==> |d| > 0 && d[0] == TypeTag(r.value.refType)
  {
    if |d| == 0 then None
    else match TypeOfTag(d[0])
      case None => None
      case Some(t) =>
        match DecodeString(d[1..])
        case None => None
        case Some((guid, d1)) =>
          match DecodeTail(d1)
          case None => None
          case Some(o) => Some(NoteRef(t, guid, o))
  }

  /** Deserialising a serialised ref gives back the same ref. */
  lemma NoteRefRoundTrip(r: NoteRef)
    ensures NoteRefFromData(AsData(r)) == Some(r)
  {
    var tag := TypeTag(r.refType);
    var tail := EncodeTail(r.linkedNotebook);
    var d := AsData(r);
    assert d == [tag] + (EncodeString(r.guid) + tail);
    assert d[0] == tag && d[1..] == EncodeString(r.guid) + tail;
    assert TypeOfTag(tag) == Some(r.refType);
    StringRoundTrip(r.guid, tail);
    TailRoundTrip(r.linkedNotebook);
  }

  /** In particular the note's guid survives the round trip. */
  lemma GuidSurvivesRoundTrip(r: NoteRef)
    ensures NoteRefFromData(AsData(r)).Some? && NoteRefFromData(AsData(r)).value.guid == r.guid
  {
    NoteRefRoundTrip(r);
  }

  /** Different refs never share a serialised form. */
  lemma AsDataInjective(r1: NoteRef, r2: NoteRef)
    requires AsData(r1) == AsData(r2)
    ensures r1 == r2
  {
    var d := AsData(r1);
    NoteRefRoundTrip(r1);
    NoteRefRoundTrip(r2);
    assert Some(r1) == NoteRefFromData(d) == Some(r2);
  }

  // ---- Only serialised refs are accepted ----

  /** Three bytes that decode to a scalar value are that character's encoding. */
  lemma CodePointSound(b0: byte, b1: byte, b2: byte)
    requires IsScalar(DecodeCodePoint(b0, b1, b2))
    ensures EncodeChar(DecodeCodePoint(b0, b1, b2) as char) == [b0, b1, b2]
  {
    var v := DecodeCodePoint(b0, b1, b2);
    var low := b1 as int * 0x100 + b2 as int;
    assert 0 <= low < 0x1_0000;
    assert v == b0 as int * 0x1_0000 + low;
    assert v / 0x1_0000 == b0 as int && v % 0x1_0000 == low;
    assert low / 0x100 == b1 as int && low % 0x100 == b2 as int;
  }

  lemma ConcatAssoc(a: seq<byte>, b: seq<byte>, c: seq<byte>)
    ensures a + (b + c) == (a + b) + c
  {
  }

  /** Writing a string writes its first character, then the rest. */
  lemma EncodeStringCons(c: char, s: string)
    ensures EncodeString([c] + s) == EncodeChar(c) + EncodeString(s)
  {
    assert ([c] + s)[0] == c && ([c] + s)[1..] == s;
  }

  /** One step of `DecodeString` past a character. */
  lemma DecodeStringStep(d: seq<byte>)
    requires |d| >= 3 && d[0] != EndOfString && IsScalar(DecodeCodePoint(d[0], d[1], d[2]))
    requires DecodeString(d[3..]).Some?
    ensures DecodeString(d) ==
      Some(([DecodeCodePoint(d[0], d[1], d[2]) as char] + DecodeString(d[3..]).value.0, DecodeString(d[3..]).value.1))
  {
  }

  /** A string read from the front of `d` was written there, followed by what is left. */
  lemma {:induction false} DecodeStringSound(d: seq<byte>)
    requires DecodeString(d).Some?
    ensures d == EncodeString(DecodeString(d).value.0) + DecodeString(d).value.1
    decreases |d|
  {
    if d[0] == EndOfString {
      assert d == [EndOfString] + d[1..];
    } else {
      var c := DecodeCodePoint(d[0], d[1], d[2]) as char;
      var tail := d[3..];
      var (s, rest) := DecodeString(tail).value;
      DecodeStringStep(d);
      DecodeStringSound(tail);
      CodePointSound(d[0], d[1], d[2]);
      EncodeStringCons(c, s);
      var ec, es := EncodeChar(c), EncodeString(s);
      assert d == [d[0], d[1], d[2]] + tail;
      assert d == ec + (es + rest);
      ConcatAssoc(ec, es, rest);
    }
  }

  lemma DecodeOptStringSound(d: seq<byte>)
    requires DecodeOptString(d).Some?
    ensures d == EncodeOptString(DecodeOptString(d).value.0) + DecodeOptString(d).value.1
  {
    if d[0] == 1 {
      DecodeStringSound(d[1..]);
      assert d == [1] + d[1..];
    } else {
      assert d == [0] + d[1..];
    }
  }

  lemma DecodeLinkedSound(d: seq<byte>)
    requires DecodeLinked(d).Some?
    ensures d == EncodeLinked(DecodeLinked(d).value.0) + DecodeLinked(d).value.1
  {
    var (guid, d1) := DecodeString(d).value;
    var (url, d2) := DecodeString(d1).value;
    var (shard, d3) := DecodeString(d2).value;
    var (gid, d4) := DecodeOptString(d3).value;
    DecodeStringSound(d);
    DecodeStringSound(d1);
    DecodeStringSound(d2);
    DecodeOptStringSound(d3);
    RegroupLinked(EncodeString(guid), EncodeString(url), EncodeString(shard), EncodeOptString(gid), d4);
  }

  lemma TailSound(d: seq<byte>)
    requires DecodeTail(d).Some?
    ensures EncodeTail(DecodeTail(d).value) == d
  {
    if d[0] == 1 {
      DecodeLinkedSound(d[1..]);
      assert d == [1] + d[1..];
    }
  }

  /**
   * `noteRefFromData:` accepts nothing but serialised refs: whatever it decodes is the
   * ref whose `asData` is exactly the data, so the two are inverse bijections.
   */
  lemma NoteRefFromDataSound(d: seq<byte>)
    requires NoteRefFromData(d).Some?
    ensures AsData(NoteRefFromData(d).value) == d
  {
    var r := NoteRefFromData(d).value;
    var (guid, d1) := DecodeString(d[1..]).value;
    assert TypeTag(r.refType) == d[0];
    DecodeStringSound(d[1..]);
    TailSound(d1);
    var es, et := EncodeString(guid), EncodeTail(r.linkedNotebook);
    assert d == [d[0]] + (es + et);
    ConcatAssoc([d[0]], es, et);
  }
}

=== FILE: note_store_options.dfy ===
/**
 * The pure parts of `ENNoteStoreClient` (evernote-sdk-ios/ENSDK/Advanced/ENNoteStoreClient.h):
 * the `ENResourceFetchOption` bits and how the deprecated boolean calls map onto them,
 * the paging contract of the find calls, and the sync-chunk size bound.
 */
module NoteStoreOptions {
  import opened Common

  // ENResourceFetchOption (ENNoteStoreClient.h:45-62)
  const IncludeData: word := 1
  const IncludeRecognitionData: word := 2
  const IncludeAlternateData: word := 4
  const IncludeAttributes: word := 8

  /** A word with exactly one bit set. */
  predicate SingleBit(b: word) {
    b != 0 && b & (b - 1) == 0
  }

  lemma FetchOptionsAreDistinctBits()
    ensures SingleBit(IncludeData) && SingleBit(IncludeRecognitionData)
    ensures SingleBit(IncludeAlternateData) && SingleBit(IncludeAttributes)
    ensures IncludeData & IncludeRecognitionData == 0 && IncludeData & IncludeAlternateData == 0
    ensures IncludeData & IncludeAttributes == 0 && IncludeRecognitionData & IncludeAlternateData == 0
    ensures IncludeRecognitionData & IncludeAttributes == 0 && IncludeAlternateData & IncludeAttributes == 0
  {
  }

  function FlagIf(b: bool, f: word): word {
    if b then f else 0
  }

  /**
   * `resourceOptions` for the deprecated
   * `getNoteWithGuid:withContent:withResourcesData:withResourcesRecognition:withResourcesAlternateData:`
   * (and `getNoteVersionWithGuid:...`, which has the same three booleans).
   */
  function NoteResourceOptions(withResourcesData: bool, withResourcesRecognition: bool, withResourcesAlternateData: bool)
    : (r: word)
    ensures (r & IncludeData != 0) == withResourcesData
    ensures (r & IncludeRecognitionData != 0) == withResourcesRecognition
    ensures (r & IncludeAlternateData != 0) == withResourcesAlternateData
    ensures r & IncludeAttributes == 0
    ensures r & !0xF == 0
  {
    FlagIf(withResourcesData, IncludeData)
    | FlagIf(withResourcesRecognition, IncludeRecognitionData)
    | FlagIf(withResourcesAlternateData, IncludeAlternateData)
  }

  /**
   * `options` for the deprecated
   * `getResourceWithGuid:withData:withRecognition:withAttributes:withAlternateDate:`.
   */
  function ResourceOptions(withData: bool, withRecognition: bool, withAttributes: bool, withAlternateData: bool)
    : (r: word)
    ensures (r & IncludeData != 0) == withData
    ensures (r & IncludeRecognitionData != 0) == withRecognition
    ensures (r & IncludeAttributes != 0) == withAttributes
    ensures (r & IncludeAlternateData != 0) == withAlternateData
    ensures r & !0xF == 0
  {
    FlagIf(withData, IncludeData)
    | FlagIf(withRecognition, IncludeRecognitionData)
    | FlagIf(withAttributes, IncludeAttributes)
    | FlagIf(withAlternateData, IncludeAlternateData)
  }

  /** The four booleans an option set stands for. */
  datatype LegacyFlags = LegacyFlags(data: bool, recognition: bool, attributes: bool, alternateData: bool)

  function LegacyFlagsOf(options: word): LegacyFlags {
    LegacyFlags(options & IncludeData != 0, options & IncludeRecognitionData != 0,
                options & IncludeAttributes != 0, options & IncludeAlternateData != 0)
  }

  /** The mapping loses nothing: the booleans can be read back from the option set. */
  lemma ResourceOptionsRoundTrip(d: bool, r: bool, a: bool, alt: bool)
    ensures LegacyFlagsOf(ResourceOptions(d, r, a, alt)) == LegacyFlags(d, r, a, alt)
  {
  }

  /** Every option set in the four declared bits comes from exactly one boolean choice. */
  lemma ResourceOptionsOnto(options: word)
    requires options & !0xF == 0
    ensures var f := LegacyFlagsOf(options);
      ResourceOptions(f.data, f.recognition, f.attributes, f.alternateData) == options
  {
  }

  /** The note call's mapping is the resource call's with attributes left out. */
  lemma NoteOptionsAreResourceOptionsWithoutAttributes(d: bool, r: bool, alt: bool)
    ensures NoteResourceOptions(d, r, alt) == ResourceOptions(d, r, false, alt)
  {
  }

  /** A page of find results, as in `EDAMNoteList` / `EDAMNotesMetadataList`. */
  datatype NoteList<T> = NoteList(startIndex: nat, notes: seq<T>, totalNotes: nat)

  /**
   * The service's answer to `findNotesWithFilter:offset:maxNotes:` or
   * `findNotesMetadataWithFilter:offset:maxNotes:resultSpec:` over the sorted
   * matches `matches`; `serverCap` is how many notes the service is willing to
   * return in one reply (it may return fewer than asked).
   */
  function ServicePage<T>(matches: seq<T>, offset: nat, maxNotes: nat, serverCap: nat): (page: NoteList<T>)
    ensures page.startIndex == offset
    ensures page.totalNotes == |matches|
    ensures |page.notes| <= maxNotes && |page.notes| <= serverCap
    ensures offset <= |matches| ==> offset + |page.notes| <= |matches|
    ensures offset <= |matches| ==> page.notes == matches[offset..offset + |page.notes|]
    ensures offset >= |matches| ==> page.notes == []
    ensures offset < |matches| && maxNotes > 0 && serverCap > 0 ==> |page.notes| > 0
  {
    if offset >= |matches| then NoteList(offset, [], |matches|)
    else
      var n := Min(Min(maxNotes, serverCap), |matches| - offset);
      NoteList(offset, matches[offset..offset + n], |matches|)
  }

  /** More results remain after a page. */
  predicate HasMore<T>(page: NoteList<T>) {
    page.startIndex + |page.notes| < page.totalNotes
  }

  /**
   * Paging is seamless: the page asked for where a first page ends continues it, so the
   * two together are the matches from the first offset on, with nothing skipped or
   * repeated, whatever sizes and caps the two requests carry.
   */
  lemma ConsecutivePagesConcatenate<T>(matches: seq<T>, offset: nat, n1: nat, cap1: nat, n2: nat, cap2: nat)
    requires offset <= |matches|
    ensures var p1 := ServicePage(matches, offset, n1, cap1);
            var p2 := ServicePage(matches, offset + |p1.notes|, n2, cap2);
            && offset + |p1.notes| + |p2.notes| <= |matches|
            && p1.notes + p2.notes == matches[offset..offset + |p1.notes| + |p2.notes|]
  {
    var p1 := ServicePage(matches, offset, n1, cap1);
    var mid := offset + |p1.notes|;
    var p2 := ServicePage(matches, mid, n2, cap2);
    assert p1.notes == matches[offset..mid];
    assert p2.notes == matches[mid..mid + |p2.notes|];
    SliceConcat(matches, offset, mid, mid + |p2.notes|);
  }

  lemma SliceConcat<T>(s: seq<T>, i: nat, j: nat, k: nat)
    requires i <= j <= k <= |s|
    ensures s[i..j] + s[j..k] == s[i..k]
  {
    assert forall x :: 0 <= x < k - i ==> (s[i..j] + s[j..k])[x] == s[i..k][x];
  }

  /** A page that reports no more results holds all the matches from its offset on. */
  lemma LastPageHoldsTheRest<T>(matches: seq<T>, offset: nat, maxNotes: nat, serverCap: nat)
    requires offset <= |matches|
    requires !HasMore(ServicePage(matches, offset, maxNotes, serverCap))
    ensures ServicePage(matches, offset, maxNotes, serverCap).notes == matches[offset..]
  {
  }

  /** The most entries an application should ask for in one sync chunk (ENNoteStoreClient.h:88,137). */
  const MaxSyncChunkEntries: int32 := 256

  /**
   * The `maxEntries` a well-behaved application sends for a chunk when it wants
   * `wanted` more objects: what it wants, but never above 256.
   */
  function SyncChunkRequestSize(wanted: nat): (r: int32)
    ensures 0 <= r <= MaxSyncChunkEntries
    ensures wanted <= 256 ==> r as int == wanted
    ensures wanted > 256 ==> r == MaxSyncChunkEntries
  {
    if wanted > 256 then MaxSyncChunkEntries else wanted as int32
  }
}

=== FILE: notebook.dfy ===
/**
 * The service records the SDK wraps. Their Thrift definitions (EDAM.h) are not part
 * of this model; each record keeps only the fields the notebook classification and
 * the routing read.
 */
module Edam {
  import opened Common

  datatype Notebook = Notebook(
    guid: string,
    name: string,
    defaultNotebook: bool,
    published: bool,
    sharedNotebookIds: seq<int>,
    /** The user id of the business contact of a business notebook. */
    contactId: Option<int>)

  /** SharedNotebookPrivilegeLevel. */
  datatype Privilege =
    | ReadNotebook
    | ModifyNotebookPlusActivity
    | ReadNotebookPlusActivity
    | Group
    | FullAccess
    | BusinessFullAccess

  datatype SharedNotebook = SharedNotebook(notebookGuid: string, globalId: string, privilege: Privilege)

  datatype LinkedNotebook = LinkedNotebook(
    guid: string,
    shareName: string,
    username: string,
    shardId: string,
    noteStoreUrl: string,
    sharedNotebookGlobalId: Option<string>,
    uri: Option<string>,
    businessId: Option<int>)
}

/**
 * `ENNotebook` (evernote-sdk-ios/ENSDK/ENNotebook.h) with its private constructors and
 * `isLinked` (evernote-sdk-ios/ENSDK/Private/ENSDKPrivate.h:44-58). A notebook is an
 * immutable snapshot of the service records it was built from; its flags are derived.
 */
module Notebooks {
  import opened Common
  import Edam

  datatype ENNotebook = ENNotebook(
    notebook: Option<Edam.Notebook>,
    sharedNotebook: Option<Edam.SharedNotebook>,
    linkedNotebook: Option<Edam.LinkedNotebook>,
    isDefaultNotebookOverride: bool)
  {
    /** `isLinked`: the notebook is reached through a linked-notebook record. */
    predicate IsLinked() { linkedNotebook.Some? }

    /** Built by `initWithNotebook:`. */
    predicate IsPersonalShape() { notebook.Some? && sharedNotebook.None? && linkedNotebook.None? }
    /** Built by `initWithSharedNotebook:forLinkedNotebook:`. */
    predicate IsSharedShape() { notebook.None? && sharedNotebook.Some? && linkedNotebook.Some? }
    /** Built by `initWithPublicNotebook:forLinkedNotebook:`. */
    predicate IsPublicShape() { notebook.Some? && sharedNotebook.None? && linkedNotebook.Some? }
    /** Built by `initWithSharedNotebook:forLinkedNotebook:withBusinessNotebook:`. */
    predicate IsBusinessShape() { notebook.Some? && sharedNotebook.Some? && linkedNotebook.Some? }

    /** Made by one of the four constructors. */
    predicate WellFormed() {
      IsPersonalShape() || IsSharedShape() || IsPublicShape() || IsBusinessShape()
    }

    function Guid(): string {
      if notebook.Some? then notebook.value.guid
      else if sharedNotebook.Some? then sharedNotebook.value.notebookGuid
      else ""
    }

    function Name(): string {
      if notebook.Some? then notebook.value.name
      else if linkedNotebook.Some? then linkedNotebook.value.shareName
      else ""
    }

    /** `isBusinessNotebook`. */
    predicate IsBusinessNotebook() { IsBusinessShape() }

    /** `isOwnShared`: a personal notebook the user shares with others. */
    predicate IsOwnShared() {
      !IsLinked() && notebook.Some? && |notebook.value.sharedNotebookIds| > 0
    }

    /** `isJoinedShared`: a notebook shared by someone else that the user joined. */
    predicate IsJoinedShared() { IsLinked() && sharedNotebook.Some? }

    /** `isShared` (ENNotebook.h:51-56). */
    predicate IsShared() { IsOwnShared() || IsJoinedShared() }

    /** `isOwnPublic`: a personal notebook the user published. */
    predicate IsOwnPublic() { !IsLinked() && notebook.Some? && notebook.value.published }

    /** `isJoinedPublic`: a public notebook of someone else, joined without a share. */
    predicate IsJoinedPublic() { IsLinked() && sharedNotebook.None? }

    /** `isPublic` (ENNotebook.h:68-73). */
    predicate IsPublic() { IsOwnPublic() || IsJoinedPublic() }

    /** `allowsWriting`: own notebooks and shares with a modifying privilege. */
    predicate AllowsWriting() {
      if !IsLinked() then true
      else if sharedNotebook.None? then false
      else sharedNotebook.value.privilege in {Edam.ModifyNotebookPlusActivity, Edam.FullAccess, Edam.BusinessFullAccess}
    }

    /** `isOwnedByUser`, for the user with id `userID` (`ENSession (Private).userID`). */
    predicate IsOwnedByUser(userID: int) {
      !IsLinked() || (IsBusinessNotebook() && notebook.value.contactId == Some(userID))
    }

    /** `isDefaultNotebook`. */
    predicate IsDefaultNotebook() {
      isDefaultNotebookOverride || (!IsLinked() && notebook.Some? && notebook.value.defaultNotebook)
    }
  }

  /** `initWithNotebook:` — a personal notebook. */
  function InitWithNotebook(nb: Edam.Notebook): (r: ENNotebook)
    ensures r.WellFormed() && r.IsPersonalShape()
    ensures r.linkedNotebook.None? && !r.IsLinked()
    ensures r.Guid() == nb.guid && r.Name() == nb.name
    ensures !r.IsBusinessNotebook() && r.AllowsWriting()
  {
    ENNotebook(Some(nb), None, None, false)
  }

  /** `initWithSharedNotebook:forLinkedNotebook:` — a non-business shared notebook. */
  function InitWithSharedNotebook(sn: Edam.SharedNotebook, ln: Edam.LinkedNotebook): (r: ENNotebook)
    ensures r.WellFormed() && r.IsSharedShape()
    ensures r.linkedNotebook == Some(ln) && r.IsLinked()
    ensures r.Guid() == sn.notebookGuid && r.Name() == ln.shareName
    ensures r.IsJoinedShared() && !r.IsBusinessNotebook()
  {
    ENNotebook(None, Some(sn), Some(ln), false)
  }

  /** `initWithPublicNotebook:forLinkedNotebook:` — a publicly shared notebook. */
  function InitWithPublicNotebook(pn: Edam.Notebook, ln: Edam.LinkedNotebook): (r: ENNotebook)
    ensures r.WellFormed() && r.IsPublicShape()
    ensures r.linkedNotebook == Some(ln) && r.IsLinked()
    ensures r.Guid() == pn.guid && r.Name() == pn.name
    ensures r.IsJoinedPublic() && !r.AllowsWriting()
  {
    ENNotebook(Some(pn), None, Some(ln), false)
  }

  /** `initWithSharedNotebook:forLinkedNotebook:withBusinessNotebook:` — a business notebook. */
  function InitWithBusinessNotebook(sn: Edam.SharedNotebook, ln: Edam.LinkedNotebook, nb: Edam.Notebook)
    : (r: ENNotebook)
    ensures r.WellFormed() && r.IsBusinessShape()
    ensures r.linkedNotebook == Some(ln) && r.IsLinked()
    ensures r.Guid() == nb.guid && r.IsBusinessNotebook()
  {
    ENNotebook(Some(nb), Some(sn), Some(ln), false)
  }

  /**
   * The notebook an "App Notebook" session hands out: it reports itself as the
   * default notebook whatever the account's default is.
   */
  function AsAppNotebook(nb: ENNotebook): (r: ENNotebook)
    ensures r.IsDefaultNotebook()
    ensures r.WellFormed() == nb.WellFormed()
    ensures r.Guid() == nb.Guid() && r.IsLinked() == nb.IsLinked()
  {
    nb.(isDefaultNotebookOverride := true)
  }

  /** The four constructors make disjoint shapes. */
  lemma ShapesAreDisjoint(nb: ENNotebook)
    ensures nb.IsPersonalShape() ==> !nb.IsSharedShape() && !nb.IsPublicShape() && !nb.IsBusinessShape()
    ensures nb.IsSharedShape() ==> !nb.IsPublicShape() && !nb.IsBusinessShape()
    ensures nb.IsPublicShape() ==> !nb.IsBusinessShape()
  {
  }

  /** `isShared` is own-or-joined shared, and at most one of the two holds. */
  lemma SharedFlags(nb: ENNotebook)
    ensures nb.IsShared() <==> nb.IsOwnShared() || nb.IsJoinedShared()
    ensures !(nb.IsOwnShared() && nb.IsJoinedShared())
  {
  }

  /** `isPublic` is own-or-joined public, and at most one of the two holds. */
  lemma PublicFlags(nb: ENNotebook)
    ensures nb.IsPublic() <==> nb.IsOwnPublic() || nb.IsJoinedPublic()
    ensures !(nb.IsOwnPublic() && nb.IsJoinedPublic())
  {
  }

  /** A joined public notebook is read-only, and a joined notebook is either shared or public. */
  lemma JoinedPublicIsReadOnly(nb: ENNotebook)
    ensures nb.IsJoinedPublic() ==> !nb.AllowsWriting()
    ensures nb.IsLinked() ==> nb.IsJoinedShared() != nb.IsJoinedPublic()
  {
  }

  /** Personal notebooks are owned; a business notebook is owned exactly when the user is its contact. */
  lemma OwnershipRule(nb: ENNotebook, userID: int)
    requires nb.WellFormed()
    ensures nb.IsPersonalShape() ==> nb.IsOwnedByUser(userID)
    ensures nb.IsBusinessNotebook() ==> (nb.IsOwnedByUser(userID) <==> nb.notebook.value.contactId == Some(userID))
    ensures nb.IsSharedShape() || nb.IsPublicShape() ==> !nb.IsOwnedByUser(userID)
  {
  }

  /** Only a personal notebook can be the account's default without the app-notebook override. */
  lemma DefaultNeedsPersonalOrOverride(nb: ENNotebook)
    requires nb.WellFormed() && nb.IsDefaultNotebook()
    ensures nb.isDefaultNotebookOverride || (nb.IsPersonalShape() && nb.notebook.value.defaultNotebook)
  {
  }

  /** Every flag of a personal notebook, read off its service record. */
  lemma PersonalNotebookFlags(nb: Edam.Notebook, userID: int)
    ensures var n := InitWithNotebook(nb);
            && !n.IsLinked() && !n.IsBusinessNotebook()
            && (n.IsShared() <==> |nb.sharedNotebookIds| > 0) && !n.IsJoinedShared()
            && (n.IsOwnShared() <==> |nb.sharedNotebookIds| > 0)
            && (n.IsPublic() <==> nb.published) && !n.IsJoinedPublic()
            && (n.IsOwnPublic() <==> nb.published)
            && n.AllowsWriting() && n.IsOwnedByUser(userID)
            && (n.IsDefaultNotebook() <==> nb.defaultNotebook)
            && n.Guid() == nb.guid && n.Name() == nb.name
  {
  }

  /** Every flag of a joined shared notebook, read off its share and its linked record. */
  lemma SharedNotebookFlags(sn: Edam.SharedNotebook, ln: Edam.LinkedNotebook, userID: int)
    ensures var n := InitWithSharedNotebook(sn, ln);
            && n.IsLinked() && !n.IsBusinessNotebook()
            && n.IsShared() && n.IsJoinedShared() && !n.IsOwnShared()
            && !n.IsPublic() && !n.IsOwnPublic() && !n.IsJoinedPublic()
            && (n.AllowsWriting() <==> sn.privilege in {Edam.ModifyNotebookPlusActivity, Edam.FullAccess, Edam.BusinessFullAccess})
            && !n.IsOwnedByUser(userID) && !n.IsDefaultNotebook()
            && n.Guid() == sn.notebookGuid && n.Name() == ln.shareName
  {
  }

  /** Every flag of a joined public notebook, read off the published record. */
  lemma PublicNotebookFlags(pn: Edam.Notebook, ln: Edam.LinkedNotebook, userID: int)
    ensures var n := InitWithPublicNotebook(pn, ln);
            && n.IsLinked() && !n.IsBusinessNotebook()
            && !n.IsShared() && !n.IsOwnShared() && !n.IsJoinedShared()
            && n.IsPublic() && n.IsJoinedPublic() && !n.IsOwnPublic()
            && !n.AllowsWriting() && !n.IsOwnedByUser(userID) && !n.IsDefaultNotebook()
            && n.Guid() == pn.guid && n.Name() == pn.name
  {
  }

  /** Every flag of a business notebook, read off its records. */
  lemma BusinessNotebookFlags(sn: Edam.SharedNotebook, ln: Edam.LinkedNotebook, nb: Edam.Notebook, userID: int)
    ensures var n := InitWithBusinessNotebook(sn, ln, nb);
            && n.IsLinked() && n.IsBusinessNotebook()
            && n.IsShared() && n.IsJoinedShared() && !n.IsOwnShared()
            && !n.IsPublic() && !n.IsOwnPublic() && !n.IsJoinedPublic()
            && (n.AllowsWriting() <==> sn.privilege in {Edam.ModifyNotebookPlusActivity, Edam.FullAccess, Edam.BusinessFullAccess})
            && (n.IsOwnedByUser(userID) <==> nb.contactId == Some(userID))
            && !n.IsDefaultNotebook()
            && n.Guid() == nb.guid && n.Name() == nb.name
  {
  }
}

=== FILE: session.dfy ===
/**
 * The session's authentication state and its note-store accessors
 * (evernote-sdk-ios/ENSDK/ENSession.h:168-186,263-279 and
 * evernote-sdk-ios/ENSDK/Advanced/ENSDKAdvanced.h:39-131).
 *
 * Routing is a pure decision: a notebook or a note ref names the store that holds
 * it (the primary store, the business store, or the store of one linked notebook).
 * The session then hands out a client for that store, creating it on first use and
 * reusing it afterwards. The authorization flow itself (OAuth, app switching, the
 * keychain) is outside the model: its result is a parameter of `CompleteAuthentication`.
 */
module Routing {
  import opened Common
  import Notebooks
  import NoteRefs

  /** The store that holds a notebook or note. */
  datatype StoreTarget =
    | PrimaryStore
    | BusinessStore
    | LinkedStore(linked: NoteRefs.LinkedNotebookRef)

  /** `noteStoreForNotebook:`'s choice. */
  function RouteNotebook(nb: Notebooks.ENNotebook): (t: StoreTarget)
    ensures t == PrimaryStore <==> !nb.IsLinked()
    ensures t == BusinessStore <==> nb.IsBusinessNotebook()
    ensures t.LinkedStore? <==> nb.IsLinked() && !nb.IsBusinessNotebook()
    ensures t.LinkedStore? ==> t.linked == NoteRefs.LinkedRefOf(nb.linkedNotebook.value)
  {
    if nb.IsBusinessNotebook() then BusinessStore
    else if nb.IsLinked() then LinkedStore(NoteRefs.LinkedRefOf(nb.linkedNotebook.value))
    else PrimaryStore
  }

  /**
   * `noteStoreForNoteRef:`'s choice; `None` for a shared ref that carries no
   * linked notebook, which no valid ref is.
   */
  function RouteNoteRef(r: NoteRefs.NoteRef): (t: Option<StoreTarget>)
    ensures r.refType == NoteRefs.PersonalRef ==> t == Some(PrimaryStore)
    ensures r.refType == NoteRefs.BusinessRef ==> t == Some(BusinessStore)
    ensures r.refType == NoteRefs.SharedRef ==>
      t == (if r.linkedNotebook.Some? then Some(LinkedStore(r.linkedNotebook.value)) else None)
  {
    match r.refType
    case PersonalRef => Some(PrimaryStore)
    case BusinessRef => Some(BusinessStore)
    case SharedRef => if r.linkedNotebook.Some? then Some(LinkedStore(r.linkedNotebook.value)) else None
  }

  /** A note found in a notebook is reached through the same store as the notebook. */
  lemma NoteRefRoutesLikeItsNotebook(noteGuid: string, nb: Notebooks.ENNotebook)
    ensures RouteNoteRef(NoteRefs.NoteRefInNotebook(noteGuid, nb)) == Some(RouteNotebook(nb))
  {
  }

  /** Every personal notebook is served by the primary store, whatever its other fields. */
  lemma PrimaryServesPersonalNotebooks(nb: Notebooks.ENNotebook)
    requires nb.WellFormed() && nb.IsPersonalShape()
    ensures RouteNotebook(nb) == PrimaryStore
    ensures RouteNotebook(Notebooks.AsAppNotebook(nb)) == PrimaryStore
  {
  }

  /** Two joined non-business notebooks share a store exactly when they are the same linked notebook. */
  lemma LinkedNotebooksGetTheirOwnStore(a: Notebooks.ENNotebook, b: Notebooks.ENNotebook)
    requires RouteNotebook(a).LinkedStore? && RouteNotebook(b).LinkedStore?
    requires a.linkedNotebook.value.guid != b.linkedNotebook.value.guid
    ensures RouteNotebook(a) != RouteNotebook(b)
  {
  }
}

module Sessions {
  import opened Common
  import Notebooks
  import NoteRefs
  import StoreClients
  import opened Routing

  /** What a successful authorization yields. */
  datatype Grant = Grant(
    noteStoreUrl: string,
    authenticationToken: string,
    userID: int,
    /** The business store's URL and token, present for a member of a business. */
    business: Option<StoreClients.BusinessDelegate>,
    /** Whether the app notebook the user picked is a linked notebook. */
    appNotebookIsLinked: bool)

  /**
   * How a client for target `t` reaches its store: the granted URL and token for the
   * primary store, the business delegate for the business store, and the linked
   * notebook's own URL with the granted token for a linked store.
   */
  function BindingFor(g: Grant, t: StoreTarget): StoreClients.Binding {
    match t
    case PrimaryStore => StoreClients.Direct(g.noteStoreUrl, g.authenticationToken)
    case BusinessStore => StoreClients.FromBusinessDelegate
    case LinkedStore(l) => StoreClients.Direct(l.noteStoreUrl, g.authenticationToken)
  }

  class Session {
    var isAuthenticated: bool
    var isAuthenticationInProgress: bool
    var grant: Option<Grant>
    /** The app's setting; it is handed to the authenticator when an authentication begins. */
    var supportsLinkedAppNotebook: bool
    /** The setting as handed to the authenticator of the authentication now running or last begun. */
    var authenticatorSupportsLinked: bool
    /** The setting under which the current grant was obtained. */
    var grantSupportsLinked: bool
    /** The session's own key-value store; exists only while authenticated. */
    var preferences: Option<map<string, string>>
    var primaryClient: Option<StoreClients.NoteStoreClient>
    var businessClient: Option<StoreClients.NoteStoreClient>
    /** One client per linked notebook, keyed by the notebook's pointer. */
    var linkedClients: map<NoteRefs.LinkedNotebookRef, StoreClients.NoteStoreClient>

    ghost predicate Valid()
      reads this
    {
      && (isAuthenticated <==> grant.Some?)
      && (isAuthenticated <==> preferences.Some?)
      && (grant.Some? && grant.value.appNotebookIsLinked ==> grantSupportsLinked)
      && (!isAuthenticated ==> primaryClient.None? && businessClient.None? && linkedClients == map[])
      && (primaryClient.Some? ==> grant.Some? && primaryClient.value.binding == BindingFor(grant.value, PrimaryStore))
      && (businessClient.Some? ==> grant.Some? && grant.value.business.Some?)
      && (businessClient.Some? ==> businessClient.value.binding == BindingFor(grant.value, BusinessStore))
      && (forall l :: l in linkedClients ==>
            grant.Some? && linkedClients[l].binding == BindingFor(grant.value, LinkedStore(l)))
      && (forall l1, l2 :: l1 in linkedClients && l2 in linkedClients && l1 != l2 ==>
            linkedClients[l1] != linkedClients[l2])
    }

    /** Signed out: no credentials, no clients, no preferences store. */
    predicate SignedOut()
      reads this
    {
      && !isAuthenticated && grant.None? && preferences.None?
      && primaryClient.None? && businessClient.None? && linkedClients == map[]
    }

    constructor ()
      ensures Valid() && SignedOut() && !isAuthenticationInProgress
      ensures supportsLinkedAppNotebook
    {
      isAuthenticated := false;
      isAuthenticationInProgress := false;
      grant := None;
      supportsLinkedAppNotebook := true;
      authenticatorSupportsLinked := true;
      grantSupportsLinked := true;
      preferences := None;
      primaryClient := None;
      businessClient := None;
      linkedClients := map[];
    }

    /** `isBusinessUser`: only a signed-in user can be a member of a business. */
    predicate IsBusinessUser()
      reads this
      ensures Valid() && IsBusinessUser() ==> isAuthenticated
    {
      grant.Some? && grant.value.business.Some?
    }

    /**
     * `appNotebookIsLinked`: what the authorization reported about the app notebook.
     * It is never set for a grant obtained while the app did not support linked app
     * notebooks.
     */
    predicate AppNotebookIsLinked()
      reads this
      ensures Valid() && AppNotebookIsLinked() ==> grantSupportsLinked
    {
      grant.Some? && grant.value.appNotebookIsLinked
    }

    /**
     * `setSupportsLinkedAppNotebook:`. The setting reaches the authorization that
     * begins next; the grant already held is not changed.
     */
    method SetSupportsLinkedAppNotebook(b: bool)
      requires Valid()
      modifies this
      ensures Valid() && supportsLinkedAppNotebook == b
      ensures isAuthenticated == old(isAuthenticated) && grant == old(grant)
      ensures isAuthenticationInProgress == old(isAuthenticationInProgress) && preferences == old(preferences)
      ensures primaryClient == old(primaryClient) && businessClient == old(businessClient)
      ensures linkedClients == old(linkedClients)
      ensures authenticatorSupportsLinked == old(authenticatorSupportsLinked) && grantSupportsLinked == old(grantSupportsLinked)
      ensures AppNotebookIsLinked() == old(AppNotebookIsLinked())
    {
      supportsLinkedAppNotebook := b;
    }

    /**
     * The start of `authenticateWithViewController:preferRegistration:completion:`.
     * Only one authentication runs at a time: a second attempt fails at once.
     */
    method BeginAuthentication() returns (r: Option<ENError>)
      requires Valid()
      modifies this
      ensures Valid() && isAuthenticationInProgress
      ensures r.Some? <==> old(isAuthenticationInProgress)
      ensures r.Some? ==> r.value == AuthenticationInProgress
      ensures r.None? ==> authenticatorSupportsLinked == supportsLinkedAppNotebook
      ensures r.Some? ==> authenticatorSupportsLinked == old(authenticatorSupportsLinked)
      ensures grantSupportsLinked == old(grantSupportsLinked)
      ensures isAuthenticated == old(isAuthenticated) && grant == old(grant)
      ensures supportsLinkedAppNotebook == old(supportsLinkedAppNotebook) && preferences == old(preferences)
      ensures primaryClient == old(primaryClient) && businessClient == old(businessClient)
      ensures linkedClients == old(linkedClients)
    {
      if isAuthenticationInProgress {
        return Some(AuthenticationInProgress);
      }
      isAuthenticationInProgress := true;
      authenticatorSupportsLinked := supportsLinkedAppNotebook;
      r := None;
    }

    /**
     * The authorization flow has finished with `result`. Success signs the user in
     * with a fresh preferences store; failure or cancellation leaves the session
     * signed out and is reported. The authenticator was told whether the app supports
     * linked app notebooks, and it reports a linked app notebook only when it does.
     */
    method CompleteAuthentication(result: Outcome<Grant>) returns (r: Option<ENError>)
      requires Valid() && isAuthenticationInProgress
      requires result.Success? && result.value.appNotebookIsLinked ==> authenticatorSupportsLinked
      modifies this
      ensures Valid() && !isAuthenticationInProgress
      ensures result.Success? ==> r.None? && isAuthenticated && grant == Some(result.value) && preferences == Some(map[])
      ensures result.Failure? ==> r == Some(result.error) && SignedOut()
      ensures primaryClient.None? && businessClient.None? && linkedClients == map[]
      ensures supportsLinkedAppNotebook == old(supportsLinkedAppNotebook)
      ensures authenticatorSupportsLinked == old(authenticatorSupportsLinked)
      ensures result.Success? ==> grantSupportsLinked == old(authenticatorSupportsLinked)
      ensures AppNotebookIsLinked() <==> result.Success? && result.value.appNotebookIsLinked
      ensures !old(authenticatorSupportsLinked) ==> !AppNotebookIsLinked()
    {
      isAuthenticationInProgress := false;
      primaryClient := None;
      businessClient := None;
      linkedClients := map[];
      if result.Success? {
        isAuthenticated := true;
        grant := Some(result.value);
        grantSupportsLinked := authenticatorSupportsLinked;
        preferences := Some(map[]);
        r := None;
      } else {
        isAuthenticated := false;
        grant := None;
        preferences := None;
        r := Some(result.error);
      }
    }

    /** `unauthenticate`: drops the credentials, every client and the preferences store. */
    method Unauthenticate()
      requires Valid()
      modifies this
      ensures Valid() && SignedOut()
      ensures isAuthenticationInProgress == old(isAuthenticationInProgress)
      ensures supportsLinkedAppNotebook == old(supportsLinkedAppNotebook)
      ensures authenticatorSupportsLinked == old(authenticatorSupportsLinked) && grantSupportsLinked == old(grantSupportsLinked)
    {
      isAuthenticated := false;
      grant := None;
      preferences := None;
      primaryClient := None;
      businessClient := None;
      linkedClients := map[];
    }

    /** `primaryNoteStore`: the client for the user's own store, made once per sign-in. */
    method PrimaryNoteStore() returns (c: Option<StoreClients.NoteStoreClient>)
      requires Valid()
      modifies this
      ensures Valid() && isAuthenticated == old(isAuthenticated) && grant == old(grant)
      ensures preferences == old(preferences) && linkedClients == old(linkedClients)
      ensures businessClient == old(businessClient)
      ensures isAuthenticationInProgress == old(isAuthenticationInProgress)
      ensures supportsLinkedAppNotebook == old(supportsLinkedAppNotebook)
      ensures authenticatorSupportsLinked == old(authenticatorSupportsLinked) && grantSupportsLinked == old(grantSupportsLinked)
      ensures c.Some? <==> isAuthenticated
      ensures c.Some? ==> primaryClient == c
      ensures c.Some? ==> c.value.binding == StoreClients.Direct(grant.value.noteStoreUrl, grant.value.authenticationToken)
      ensures old(primaryClient).Some? ==> c == old(primaryClient)
      ensures c.Some? && old(primaryClient).None? ==> fresh(c.value)
    {
      if !isAuthenticated {
        return None;
      }
      if primaryClient.None? {
        var client := new StoreClients.NoteStoreClient.WithUrl(grant.value.noteStoreUrl, grant.value.authenticationToken);
        primaryClient := Some(client);
      }
      c := primaryClient;
    }

    /** `businessNoteStore`: nil exactly when the user is not a member of a business. */
    method BusinessNoteStore() returns (c: Option<StoreClients.NoteStoreClient>)
      requires Valid()
      modifies this
      ensures Valid() && isAuthenticated == old(isAuthenticated) && grant == old(grant)
      ensures preferences == old(preferences) && linkedClients == old(linkedClients)
      ensures primaryClient == old(primaryClient)
      ensures isAuthenticationInProgress == old(isAuthenticationInProgress)
      ensures supportsLinkedAppNotebook == old(supportsLinkedAppNotebook)
      ensures authenticatorSupportsLinked == old(authenticatorSupportsLinked) && grantSupportsLinked == old(grantSupportsLinked)
      ensures c.Some? <==> isAuthenticated && IsBusinessUser()
      ensures c.Some? ==> businessClient == c && c.value.binding == StoreClients.FromBusinessDelegate
      ensures old(businessClient).Some? ==> c == old(businessClient)
      ensures c.Some? && old(businessClient).None? ==>
        && fresh(c.value) && c.value.binding == StoreClients.FromBusinessDelegate
        && c.value.delegate == grant.value.business
    {
      if !isAuthenticated || grant.value.business.None? {
        return None;
      }
      if businessClient.None? {
        var client := new StoreClients.NoteStoreClient.ForBusiness();
        client.SetDelegate(grant.value.business);
        businessClient := Some(client);
      }
      c := businessClient;
    }

    /**
     * `noteStoreForLinkedNotebook:`: each linked notebook gets a client of its own,
     * made on first use against that notebook's store and reused afterwards.
     */
    method NoteStoreForLinkedNotebook(ln: NoteRefs.LinkedNotebookRef) returns (c: Option<StoreClients.NoteStoreClient>)
      requires Valid()
      modifies this
      ensures Valid() && isAuthenticated == old(isAuthenticated) && grant == old(grant)
      ensures preferences == old(preferences)
      ensures primaryClient == old(primaryClient) && businessClient == old(businessClient)
      ensures isAuthenticationInProgress == old(isAuthenticationInProgress)
      ensures supportsLinkedAppNotebook == old(supportsLinkedAppNotebook)
      ensures authenticatorSupportsLinked == old(authenticatorSupportsLinked) && grantSupportsLinked == old(grantSupportsLinked)
      ensures c.Some? <==> isAuthenticated
      ensures c.Some? ==> ln in linkedClients && linkedClients[ln] == c.value
      ensures c.Some? ==> linkedClients == old(linkedClients)[ln := c.value]
      ensures c.Some? ==> c.value.binding == StoreClients.Direct(ln.noteStoreUrl, grant.value.authenticationToken)
      ensures c.None? ==> linkedClients == old(linkedClients)
      ensures ln in old(linkedClients) ==> c == Some(old(linkedClients)[ln])
      ensures c.Some? && ln !in old(linkedClients) ==> fresh(c.value)
    {
      if !isAuthenticated {
        return None;
      }
      if ln !in linkedClients {
        var client := new StoreClients.NoteStoreClient.WithUrl(ln.noteStoreUrl, grant.value.authenticationToken);
        linkedClients := linkedClients[ln := client];
      }
      c := Some(linkedClients[ln]);
    }

    /** The client for a store target, bound to that target's store. */
    method NoteStoreFor(t: StoreTarget) returns (c: Option<StoreClients.NoteStoreClient>)
      requires Valid()
      modifies this
      ensures Valid() && isAuthenticated == old(isAuthenticated) && grant == old(grant)
      ensures preferences == old(preferences) && isAuthenticationInProgress == old(isAuthenticationInProgress)
      ensures supportsLinkedAppNotebook == old(supportsLinkedAppNotebook)
      ensures authenticatorSupportsLinked == old(authenticatorSupportsLinked) && grantSupportsLinked == old(grantSupportsLinked)
      ensures c.Some? ==> grant.Some? && c.value.binding == BindingFor(grant.value, t)
      ensures t == PrimaryStore ==> (c.Some? <==> isAuthenticated) && (c.Some? ==> c == primaryClient)
      ensures t == BusinessStore ==> (c.Some? <==> isAuthenticated && IsBusinessUser()) && (c.Some? ==> c == businessClient)
      ensures t.LinkedStore? ==> (c.Some? <==> isAuthenticated) && (c.Some? ==> t.linked in linkedClients && c == Some(linkedClients[t.linked]))
      ensures t != PrimaryStore ==> primaryClient == old(primaryClient)
      ensures t != BusinessStore ==> businessClient == old(businessClient)
      ensures !t.LinkedStore? ==> linkedClients == old(linkedClients)
      ensures t.LinkedStore? ==> forall l :: l in old(linkedClients) ==> l in linkedClients && linkedClients[l] == old(linkedClients)[l]
    {
      match t
      case PrimaryStore => c := PrimaryNoteStore();
      case BusinessStore => c := BusinessNoteStore();
      case LinkedStore(ln) => c := NoteStoreForLinkedNotebook(ln);
    }

    /** `noteStoreForNotebook:`: the client for the store that holds the notebook. */
    method NoteStoreForNotebook(nb: Notebooks.ENNotebook) returns (c: Option<StoreClients.NoteStoreClient>)
      requires Valid()
      modifies this
      ensures Valid() && isAuthenticated == old(isAuthenticated) && grant == old(grant)
      ensures preferences == old(preferences) && isAuthenticationInProgress == old(isAuthenticationInProgress)
      ensures supportsLinkedAppNotebook == old(supportsLinkedAppNotebook)
      ensures authenticatorSupportsLinked == old(authenticatorSupportsLinked) && grantSupportsLinked == old(grantSupportsLinked)
      ensures !nb.IsLinked() ==>
        && (c.Some? <==> isAuthenticated) && (c.Some? ==> c == primaryClient)
        && (c.Some? ==> c.value.binding == StoreClients.Direct(grant.value.noteStoreUrl, grant.value.authenticationToken))
        && businessClient == old(businessClient) && linkedClients == old(linkedClients)
      ensures nb.IsBusinessNotebook() ==>
        && (c.Some? <==> isAuthenticated && IsBusinessUser()) && (c.Some? ==> c == businessClient)
        && (c.Some? ==> c.value.binding == StoreClients.FromBusinessDelegate)
        && primaryClient == old(primaryClient) && linkedClients == old(linkedClients)
      ensures nb.IsLinked() && !nb.IsBusinessNotebook() ==>
        var l := NoteRefs.LinkedRefOf(nb.linkedNotebook.value);
        && (c.Some? <==> isAuthenticated) && (c.Some? ==> l in linkedClients && c == Some(linkedClients[l]))
        && (c.Some? ==> c.value.binding == StoreClients.Direct(nb.linkedNotebook.value.noteStoreUrl, grant.value.authenticationToken))
        && primaryClient == old(primaryClient) && businessClient == old(businessClient)
    {
      c := NoteStoreFor(RouteNotebook(nb));
    }

    /** `noteStoreForNoteRef:`: the client for the store that holds the note; nil for a shared ref without a linked notebook. */
    method NoteStoreForNoteRef(r: NoteRefs.NoteRef) returns (c: Option<StoreClients.NoteStoreClient>)
      requires Valid()
      modifies this
      ensures Valid() && isAuthenticated == old(isAuthenticated) && grant == old(grant)
      ensures preferences == old(preferences) && isAuthenticationInProgress == old(isAuthenticationInProgress)
      ensures supportsLinkedAppNotebook == old(supportsLinkedAppNotebook)
      ensures authenticatorSupportsLinked == old(authenticatorSupportsLinked) && grantSupportsLinked == old(grantSupportsLinked)
      ensures RouteNoteRef(r).None? ==>
        && c.None? && primaryClient == old(primaryClient)
        && businessClient == old(businessClient) && linkedClients == old(linkedClients)
      ensures r.refType == NoteRefs.PersonalRef ==>
        && (c.Some? <==> isAuthenticated) && (c.Some? ==> c == primaryClient)
        && (c.Some? ==> c.value.binding == StoreClients.Direct(grant.value.noteStoreUrl, grant.value.authenticationToken))
        && businessClient == old(businessClient) && linkedClients == old(linkedClients)
      ensures r.refType == NoteRefs.BusinessRef ==>
        && (c.Some? <==> isAuthenticated && IsBusinessUser()) && (c.Some? ==> c == businessClient)
        && (c.Some? ==> c.value.binding == StoreClients.FromBusinessDelegate)
        && primaryClient == old(primaryClient) && linkedClients == old(linkedClients)
      ensures r.refType == NoteRefs.SharedRef && r.linkedNotebook.Some? ==>
        var l := r.linkedNotebook.value;
        && (c.Some? <==> isAuthenticated) && (c.Some? ==> l in linkedClients && c == Some(linkedClients[l]))
        && (c.Some? ==> c.value.binding == StoreClients.Direct(l.noteStoreUrl, grant.value.authenticationToken))
        && primaryClient == old(primaryClient) && businessClient == old(businessClient)
    {
      var t := RouteNoteRef(r);
      if t.None? {
        return None;
      }
      c := NoteStoreFor(t.value);
    }
  }
}

=== FILE: session_options.dfy ===
/**
 * The option sets of `ENSession` (evernote-sdk-ios/ENSDK/ENSession.h):
 * search scope, sort order, upload policy, and the `maxResults` rule of
 * `findNotesWithSearch:inNotebook:orScope:sortOrder:maxResults:completion:`.
 */
module SessionOptions {
  import opened Common

  // ENSessionSearchScope (ENSession.h:70-92)
  const ScopeNone: word := 0
  const ScopePersonal: word := 1
  const ScopePersonalLinked: word := 2
  const ScopeBusiness: word := 4
  const ScopeAppNotebook: word := 8
  /** ENSessionSearchScopeDefault (ENSession.h:95). */
  const ScopeDefault: word := ScopePersonal
  /** ENSessionSearchScopeAll (ENSession.h:98). */
  const ScopeAll: word := ScopePersonal | ScopePersonalLinked | ScopeBusiness

  // ENSessionSortOrder (ENSession.h:103-135)
  const SortTitle: word := 1
  const SortRecentlyCreated: word := 2
  const SortRecentlyUpdated: word := 4
  const SortRelevance: word := 8
  const SortNormal: word := 0
  const SortReverse: word := 0x1_0000
  /** ENSessionSortOrderDefault (ENSession.h:136). */
  const SortDefault: word := SortTitle
  /** The bits that choose the kind of sort. */
  const SortKindMask: word := 0xF

  lemma ScopeAllExcludesAppNotebook()
    ensures ScopeAll == 7
    ensures ScopeAll & ScopeAppNotebook == 0
    ensures ScopeAll & ScopePersonal != 0 && ScopeAll & ScopePersonalLinked != 0 && ScopeAll & ScopeBusiness != 0
  {
  }

  lemma Defaults()
    ensures ScopeDefault == ScopePersonal
    ensures SortDefault == SortTitle && SortDefault & SortReverse == 0
  {
  }

  /**
   * The scope a search really uses: with the AppNotebook flag set every other flag
   * is ignored; otherwise only the three store flags are looked at.
   */
  function EffectiveScope(scope: word): (r: word)
    ensures scope & ScopeAppNotebook != 0 ==> r == ScopeAppNotebook
    ensures scope & ScopeAppNotebook == 0 ==> r == scope & ScopeAll
  {
    if scope & ScopeAppNotebook != 0 then ScopeAppNotebook else scope & ScopeAll
  }

  /** Where a find request searches. */
  datatype SearchPlan<NB> =
    | InNotebook(notebook: NB)
    | InAppNotebook
    | InStores(personal: bool, personalLinked: bool, business: bool)

  /**
   * The target of a find: an explicit notebook wins over the scope; without one the
   * scope decides, and scope None (meant only for the explicit-notebook case) is
   * refused.
   */
  function PlanSearch<NB>(notebook: Option<NB>, scope: word): (r: Outcome<SearchPlan<NB>>)
    ensures notebook.Some? ==> r == Success(InNotebook(notebook.value))
    ensures notebook.None? ==> (r.Failure? <==> EffectiveScope(scope) == ScopeNone)
    ensures notebook.None? && scope & ScopeAppNotebook != 0 ==> r == Success(InAppNotebook)
    ensures notebook.None? && r.Success? && r.value.InStores? ==>
      && r.value.personal == (scope & ScopePersonal != 0)
      && r.value.personalLinked == (scope & ScopePersonalLinked != 0)
      && r.value.business == (scope & ScopeBusiness != 0)
  {
    if notebook.Some? then Success(InNotebook(notebook.value))
    else
      var eff := EffectiveScope(scope);
      if eff == ScopeNone then Failure(InvalidArgument("no notebook and no search scope"))
      else if eff == ScopeAppNotebook then Success(InAppNotebook)
      else Success(InStores(eff & ScopePersonal != 0, eff & ScopePersonalLinked != 0, eff & ScopeBusiness != 0))
  }

  /** Once AppNotebook is set, the other scope flags make no difference. */
  lemma AppNotebookOverridesScope<NB>(s: word, t: word)
    requires s & ScopeAppNotebook != 0 && t & ScopeAppNotebook != 0
    ensures EffectiveScope(s) == EffectiveScope(t)
    ensures PlanSearch<NB>(None, s) == PlanSearch<NB>(None, t) == Success(InAppNotebook)
  {
  }

  /** The All scope searches the three stores and not the app notebook. */
  lemma ScopeAllSearchesEverything<NB>()
    ensures PlanSearch<NB>(None, ScopeAll) == Success(InStores(true, true, true))
  {
    assert EffectiveScope(ScopeAll) == ScopeAll;
  }

  /** Scope None succeeds only together with an explicit notebook. */
  lemma ScopeNoneNeedsNotebook<NB>(notebook: Option<NB>)
    ensures PlanSearch(notebook, ScopeNone).Success? <==> notebook.Some?
  {
  }

  /** How many scopes a plan searches. */
  function ScopeCount<NB>(plan: SearchPlan<NB>): (n: nat)
    ensures n <= 3
    ensures plan.InNotebook? || plan.InAppNotebook? ==> n == 1
    ensures plan.InStores? ==> (n == 0 <==> !plan.personal && !plan.personalLinked && !plan.business)
    ensures plan.InStores? ==>
      (n == 1 <==>
        || (plan.personal && !plan.personalLinked && !plan.business)
        || (!plan.personal && plan.personalLinked && !plan.business)
        || (!plan.personal && !plan.personalLinked && plan.business))
    ensures plan.InStores? ==> (n == 3 <==> plan.personal && plan.personalLinked && plan.business)
  {
    match plan
    case InNotebook(_) => 1
    case InAppNotebook => 1
    case InStores(p, l, b) => (if p then 1 else 0) + (if l then 1 else 0) + (if b then 1 else 0)
  }

  /** The three store flags of a search scope. */
  const StoreScopes: set<word> := {ScopePersonal, ScopePersonalLinked, ScopeBusiness}

  /** The store flags set in `scope`. */
  function StoreFlagsOf(scope: word): set<word> {
    set f | f in StoreScopes && scope & f != 0
  }

  /** The store flags set in `scope`, one flag at a time. */
  function StoreFlagSet(p: bool, l: bool, b: bool): set<word> {
    (if p then {ScopePersonal} else {}) + (if l then {ScopePersonalLinked} else {}) + (if b then {ScopeBusiness} else {})
  }

  lemma StoreFlagsSplit(scope: word)
    ensures StoreFlagsOf(scope) ==
      StoreFlagSet(scope & ScopePersonal != 0, scope & ScopePersonalLinked != 0, scope & ScopeBusiness != 0)
  {
  }

  /** The three flags are distinct, so each set flag adds one. */
  lemma StoreFlagSetSize(p: bool, l: bool, b: bool)
    ensures |StoreFlagSet(p, l, b)| == (if p then 1 else 0) + (if l then 1 else 0) + (if b then 1 else 0)
  {
    var ps: set<word> := if p then {ScopePersonal} else {};
    var ls: set<word> := if l then {ScopePersonalLinked} else {};
    var bs: set<word> := if b then {ScopeBusiness} else {};
    assert ps * ls == {};
    assert (ps + ls) * bs == {};
  }

  /** A search of the stores searches as many scopes as the scope word sets store flags. */
  lemma ScopeCountCountsStoreFlags<NB>(scope: word)
    requires PlanSearch<NB>(None, scope).Success? && PlanSearch<NB>(None, scope).value.InStores?
    ensures ScopeCount(PlanSearch<NB>(None, scope).value) == |StoreFlagsOf(scope)|
  {
    StoreFlagsSplit(scope);
    StoreFlagSetSize(scope & ScopePersonal != 0, scope & ScopePersonalLinked != 0, scope & ScopeBusiness != 0);
  }

  /** The kind part of a sort order (bits 0 to 3). */
  function SortKind(order: word): (k: word)
    ensures k <= SortKindMask
    ensures k & !SortKindMask == 0
  {
    order & SortKindMask
  }

  /** The direction part of a sort order (bit 16). */
  predicate IsReverse(order: word) {
    order & SortReverse != 0
  }

  /** A sort order whose bits are all among the declared ones. */
  predicate WellFormedSortOrder(order: word) {
    order & !(SortKindMask | SortReverse) == 0
  }

  /** Builds a sort order from a kind and a direction. */
  function MakeSortOrder(kind: word, reverse: bool): (order: word)
    requires kind & !SortKindMask == 0
    ensures WellFormedSortOrder(order)
    ensures SortKind(order) == kind
    ensures IsReverse(order) == reverse
  {
    kind | (if reverse then SortReverse else SortNormal)
  }

  /** Every well-formed sort order is exactly its kind plus its direction. */
  lemma SortOrderDecomposes(order: word)
    requires WellFormedSortOrder(order)
    ensures MakeSortOrder(SortKind(order), IsReverse(order)) == order
  {
  }

  /** The Normal direction is the absence of the Reverse bit. */
  lemma NormalIsNoFlag(kind: word)
    requires kind & !SortKindMask == 0
    ensures kind | SortNormal == kind
    ensures !IsReverse(kind | SortNormal) && IsReverse(kind | SortReverse)
  {
  }

  /** Relevance ordering is accepted only when one scope is searched. */
  predicate SortOrderAllowed<NB>(order: word, plan: SearchPlan<NB>) {
    SortKind(order) & SortRelevance != 0 ==> ScopeCount(plan) == 1
  }

  lemma RelevanceNeedsSingleScope<NB>(nb: NB)
    ensures !SortOrderAllowed<NB>(SortRelevance, InStores(true, true, true))
    ensures !SortOrderAllowed<NB>(SortRelevance | SortReverse, InStores(true, false, true))
    ensures SortOrderAllowed<NB>(SortRelevance, InNotebook(nb))
    ensures SortOrderAllowed<NB>(SortRelevance, InStores(false, false, true))
    ensures forall p: SearchPlan<NB> :: SortOrderAllowed(SortTitle, p)
  {
  }

  /**
   * For every search without an explicit notebook that the scope word allows, relevance
   * ordering is valid exactly when one scope is searched: the app notebook, or a single
   * store flag.
   */
  lemma RelevanceNeedsSingleScopeForEveryScope<NB>(scope: word)
    requires PlanSearch<NB>(None, scope).Success?
    ensures var plan := PlanSearch<NB>(None, scope).value;
            && (SortOrderAllowed(SortRelevance, plan) <==> ScopeCount(plan) == 1)
            && (SortOrderAllowed(SortRelevance, plan) <==>
                  scope & ScopeAppNotebook != 0 || |StoreFlagsOf(scope)| == 1)
  {
    var plan := PlanSearch<NB>(None, scope).value;
    assert SortKind(SortRelevance) & SortRelevance != 0;
    if plan.InStores? {
      ScopeCountCountsStoreFlags<NB>(scope);
    }
  }

  /** `maxResults` of a find: zero means every match. */
  function ResultLimit(maxResults: nat, available: nat): (n: nat)
    ensures n <= available
    ensures maxResults == 0 ==> n == available
    ensures maxResults > 0 ==> n <= maxResults && (n == maxResults || n == available)
  {
    if maxResults == 0 then available else Min(maxResults, available)
  }

  // ENSessionUploadPolicy (ENSession.h:52-65)
  datatype UploadPolicy = Create | Replace | ReplaceOrCreate

  /** What an upload does on the service. */
  datatype UploadAction<NB, R> =
    | CreateNote(destination: Option<NB>)
    | ReplaceNote(target: R)

  /**
   * The decision of `uploadNote:policy:toNotebook:orReplaceNote:progress:completion:`.
   * `stillExists` is the service's answer to whether the note to replace is still there.
   * The notebook is used only when creating: it is not used when a note to replace is given.
   */
  function DecideUpload<NB, R>(policy: UploadPolicy, notebook: Option<NB>, noteToReplace: Option<R>, stillExists: bool)
    : (r: Outcome<UploadAction<NB, R>>)
    ensures policy == Create ==> r == Success(CreateNote(notebook))
    ensures policy == Replace ==>
      (r.Success? <==> noteToReplace.Some? && stillExists) &&
      (r.Success? ==> r.value == ReplaceNote(noteToReplace.value))
    ensures policy == ReplaceOrCreate ==> r.Success?
    ensures policy == ReplaceOrCreate && noteToReplace.Some? ==>
      r.value == (if stillExists then ReplaceNote(noteToReplace.value) else CreateNote(None))
    ensures policy == ReplaceOrCreate && noteToReplace.None? ==> r.value == CreateNote(notebook)
    ensures r.Success? && r.value.ReplaceNote? ==> policy != Create && noteToReplace == Some(r.value.target)
  {
    match policy
    case Create => Success(CreateNote(notebook))
    case Replace =>
      if noteToReplace.None? then Failure(InvalidArgument("replace policy needs a note to replace"))
      else if !stillExists then Failure(ApplicationError(NotFound, "note to replace"))
      else Success(ReplaceNote(noteToReplace.value))
    case ReplaceOrCreate =>
      if noteToReplace.Some? && stillExists then Success(ReplaceNote(noteToReplace.value))
      else if noteToReplace.Some? then Success(CreateNote(None))
      else Success(CreateNote(notebook))
  }

  /** A notebook given together with a note to replace never decides where the note goes. */
  lemma NotebookIgnoredWhenReplacing<NB, R>(policy: UploadPolicy, nb1: Option<NB>, nb2: Option<NB>, ref: R, exists_: bool)
    requires policy != Create
    ensures DecideUpload(policy, nb1, Some(ref), exists_) == DecideUpload(policy, nb2, Some(ref), exists_)
  {
  }
}

=== FILE: store_client.dfy ===
/**
 * `ENNoteStoreClient` as a store client: a FIFO queue of calls against one note
 * store, where only the head is in flight and `cancelFirstOperation`
 * (evernote-sdk-ios/ENSDK/Advanced/ENNoteStoreClient.h:868-871) cancels that head
 * alone; completion blocks carrying a value or an error
 * (ENNoteStoreClient.h:78); the URL and token a client is made with
 * (evernote-sdk-ios/ENSDK/Private/ENSDKPrivate.h:80-87); and
 * `ENBusinessNoteStoreClient`, which asks its delegate for both
 * (evernote-sdk-ios/ENSDK/Advanced/ENBusinessNoteStoreClient.h:32-51).
 *
 * The service is an oracle: the outcome of the call in flight is a parameter of
 * `FinishFirst`. Execution is sequential; one step is one event on the queue.
 */
module StoreClients {
  import opened Common
  import Edam
  import Notebooks

  /** A call submitted to a client; `id` tells submissions apart. */
  datatype Operation = Operation(id: nat, call: string)

  /** The value a call's completion block receives when it succeeds. */
  datatype Reply = NoValue | Value(body: seq<byte>)

  /** One completion block invocation: which call, and with what. */
  datatype Completion = Completion(op: Operation, outcome: Outcome<Reply>)

  /**
   * A completion block's `(value, error)` pair read by the header's convention:
   * if the error is set, the value is undefined.
   */
  function CompletionOf<V>(value: V, error: Option<ENError>): (r: Outcome<V>)
    ensures r.Failure? <==> error.Some?
    ensures r.Failure? ==> r.error == error.value
    ensures r.Success? ==> r.value == value
  {
    if error.Some? then Failure(error.value) else Success(value)
  }

  /** With the error set, nothing about the value reaches the caller. */
  lemma ValueUndefinedOnError<V>(v1: V, v2: V, e: ENError)
    ensures CompletionOf(v1, Some(e)) == CompletionOf(v2, Some(e))
  {
  }

  // ---- The queue as a state machine ----

  /** The calls of a list of completions, in delivery order. */
  function OpsOf(d: seq<Completion>): (ops: seq<Operation>)
    ensures |ops| == |d|
    ensures forall i :: 0 <= i < |d| ==> ops[i] == d[i].op
  {
    if d == [] then [] else OpsOf(d[..|d| - 1]) + [d[|d| - 1].op]
  }

  datatype QueueState = QueueState(
    /** Every call submitted so far, in submission order. */
    submitted: seq<Operation>,
    /** Calls not completed yet; the head is the one in flight. */
    pending: seq<Operation>,
    /** Completion blocks invoked so far, in order. */
    delivered: seq<Completion>)

  datatype QueueEvent =
    | Submit(op: Operation)
    | FinishFirst(outcome: Outcome<Reply>)
    | CancelFirst

  /** Completions come back in submission order, and every pending call is waiting its turn. */
  predicate Fifo(s: QueueState) {
    s.submitted == OpsOf(s.delivered) + s.pending
  }

  /** The call in flight: the head of the queue, if any. */
  function InFlight(s: QueueState): (r: Option<Operation>)
    ensures r.Some? <==> |s.pending| > 0
    ensures r.Some? ==> r.value == s.pending[0]
  {
    if s.pending == [] then None else Some(s.pending[0])
  }

  const EmptyQueue := QueueState([], [], [])

  function Step(s: QueueState, e: QueueEvent): QueueState {
    match e
    case Submit(op) => s.(submitted := s.submitted + [op], pending := s.pending + [op])
    case FinishFirst(outcome) =>
      if s.pending == [] then s
      else s.(pending := s.pending[1..], delivered := s.delivered + [Completion(s.pending[0], outcome)])
    case CancelFirst =>
      if s.pending == [] then s
      else s.(pending := s.pending[1..], delivered := s.delivered + [Completion(s.pending[0], Failure(Cancelled))])
  }

  function Run(s: QueueState, events: seq<QueueEvent>): QueueState
    decreases |events|
  {
    if events == [] then s else Run(Step(s, events[0]), events[1..])
  }

  lemma OpsOfAppend(d: seq<Completion>, c: Completion)
    ensures OpsOf(d + [c]) == OpsOf(d) + [c.op]
  {
    assert (d + [c])[..|d|] == d;
  }

  /** Completing the head, whatever the outcome, keeps completions in submission order. */
  lemma CompleteHeadKeepsFifo(s: QueueState, outcome: Outcome<Reply>)
    requires Fifo(s) && s.pending != []
    ensures Fifo(s.(pending := s.pending[1..], delivered := s.delivered + [Completion(s.pending[0], outcome)]))
  {
    OpsOfAppend(s.delivered, Completion(s.pending[0], outcome));
    assert s.pending == [s.pending[0]] + s.pending[1..];
    assert OpsOf(s.delivered) + s.pending == (OpsOf(s.delivered) + [s.pending[0]]) + s.pending[1..];
  }

  lemma StepKeepsFifo(s: QueueState, e: QueueEvent)
    requires Fifo(s)
    ensures Fifo(Step(s, e))
  {
    match e
    case Submit(op) =>
      assert OpsOf(s.delivered) + (s.pending + [op]) == (OpsOf(s.delivered) + s.pending) + [op];
    case FinishFirst(outcome) =>
      if s.pending != [] {
        CompleteHeadKeepsFifo(s, outcome);
      }
    case CancelFirst =>
      if s.pending != [] {
        CompleteHeadKeepsFifo(s, Failure(Cancelled));
      }
  }

  /** Whatever happens to a client, completions follow submission order. */
  lemma {:induction false} RunKeepsFifo(s: QueueState, events: seq<QueueEvent>)
    requires Fifo(s)
    ensures Fifo(Run(s, events))
    ensures OpsOf(Run(s, events).delivered) <= Run(s, events).submitted
    decreases |events|
  {
    if events != [] {
      StepKeepsFifo(s, events[0]);
      RunKeepsFifo(Step(s, events[0]), events[1..]);
    }
  }

  /** Cancelling completes the head with `Cancelled` and leaves every call behind it untouched. */
  lemma CancelAffectsOnlyHead(s: QueueState)
    ensures s.pending != [] ==>
      && Step(s, CancelFirst).pending == s.pending[1..]
      && Step(s, CancelFirst).delivered == s.delivered + [Completion(s.pending[0], Failure(Cancelled))]
      && Step(s, CancelFirst).submitted == s.submitted
    ensures s.pending == [] ==> Step(s, CancelFirst) == s
  {
  }

  /**
   * With A in flight and B queued, cancelling and then letting the next call finish
   * completes A with `Cancelled` and then B normally.
   */
  lemma CancelThenNextRuns(a: Operation, b: Operation, reply: Reply)
    ensures Run(EmptyQueue, [Submit(a), Submit(b), CancelFirst, FinishFirst(Success(reply))]).delivered
      == [Completion(a, Failure(Cancelled)), Completion(b, Success(reply))]
  {
    var events := [Submit(a), Submit(b), CancelFirst, FinishFirst(Success(reply))];
    var s1 := Step(EmptyQueue, Submit(a));
    var s2 := Step(s1, Submit(b));
    var s3 := Step(s2, CancelFirst);
    var s4 := Step(s3, FinishFirst(Success(reply)));
    assert s2.pending == [a, b];
    assert s3.pending == [b] && s3.delivered == [Completion(a, Failure(Cancelled))];
    assert s4.delivered == [Completion(a, Failure(Cancelled)), Completion(b, Success(reply))];
    assert events[1..][1..][1..][1..] == [];
    assert Run(s4, []) == s4;
    assert Run(s3, events[1..][1..][1..]) == s4;
    assert Run(s2, events[1..][1..]) == s4;
    assert Run(s1, events[1..]) == s4;
  }

  // ---- The client object ----

  /** What the business client's delegate answers when asked for the store URL and token. */
  datatype BusinessDelegate = BusinessDelegate(noteStoreUrl: string, authenticationToken: string)

  /** Where a client takes its store URL and token from. */
  datatype Binding =
    | Direct(url: string, token: string)
    | FromBusinessDelegate

  class NoteStoreClient {
    const binding: Binding
    /** The weak `delegate` of `ENBusinessNoteStoreClient`; nil until the session sets it. */
    var delegate: Option<BusinessDelegate>
    var queue: QueueState

    ghost predicate Valid()
      reads this
    {
      Fifo(queue)
    }

    /** `noteStoreUrl`. */
    function NoteStoreUrl(): (r: Option<string>)
      reads this
      ensures binding.Direct? ==> r == Some(binding.url)
      ensures binding.FromBusinessDelegate? ==>
        r == (if delegate.Some? then Some(delegate.value.noteStoreUrl) else None)
    {
      match binding
      case Direct(url, _) => Some(url)
      case FromBusinessDelegate => if delegate.Some? then Some(delegate.value.noteStoreUrl) else None
    }

    /** `authenticationToken`. */
    function AuthenticationToken(): (r: Option<string>)
      reads this
      ensures binding.Direct? ==> r == Some(binding.token)
      ensures binding.FromBusinessDelegate? ==>
        r == (if delegate.Some? then Some(delegate.value.authenticationToken) else None)
    {
      match binding
      case Direct(_, token) => Some(token)
      case FromBusinessDelegate => if delegate.Some? then Some(delegate.value.authenticationToken) else None
    }

    /** `noteStoreClientWithUrl:authenticationToken:`. */
    constructor WithUrl(url: string, authenticationToken: string)
      ensures Valid() && queue == EmptyQueue && delegate.None?
      ensures binding == Direct(url, authenticationToken)
      ensures NoteStoreUrl() == Some(url) && AuthenticationToken() == Some(authenticationToken)
    {
      binding := Direct(url, authenticationToken);
      delegate := None;
      queue := EmptyQueue;
    }

    /** `noteStoreClientForBusiness`. */
    constructor ForBusiness()
      ensures Valid() && queue == EmptyQueue
      ensures binding == FromBusinessDelegate && delegate.None?
    {
      binding := FromBusinessDelegate;
      delegate := None;
      queue := EmptyQueue;
    }

    /** Setting `delegate`. */
    method SetDelegate(d: Option<BusinessDelegate>)
      modifies this
      ensures delegate == d && queue == old(queue)
      ensures binding.FromBusinessDelegate? && d.Some? ==>
        NoteStoreUrl() == Some(d.value.noteStoreUrl) && AuthenticationToken() == Some(d.value.authenticationToken)
    {
      delegate := d;
    }

    /** Submitting a call: it joins the end of the queue and starts once all before it have completed. */
    method Submit(op: Operation)
      requires Valid()
      modifies this
      ensures Valid() && delegate == old(delegate)
      ensures queue == Step(old(queue), QueueEvent.Submit(op))
      ensures InFlight(queue) == if old(queue.pending) == [] then Some(op) else InFlight(old(queue))
    {
      StepKeepsFifo(queue, QueueEvent.Submit(op));
      queue := queue.(submitted := queue.submitted + [op], pending := queue.pending + [op]);
    }

    /** The call in flight completes with the service's outcome; the next call starts. */
    method FinishFirst(outcome: Outcome<Reply>)
      requires Valid()
      modifies this
      ensures Valid() && delegate == old(delegate)
      ensures queue == Step(old(queue), QueueEvent.FinishFirst(outcome))
    {
      StepKeepsFifo(queue, QueueEvent.FinishFirst(outcome));
      if queue.pending != [] {
        queue := queue.(pending := queue.pending[1..],
                        delivered := queue.delivered + [Completion(queue.pending[0], outcome)]);
      }
    }

    /** `cancelFirstOperation`. */
    method CancelFirstOperation()
      requires Valid()
      modifies this
      ensures Valid() && delegate == old(delegate)
      ensures queue == Step(old(queue), CancelFirst)
      ensures old(queue.pending) != [] ==> queue.pending == old(queue.pending[1..])
      ensures old(queue.pending) == [] ==> queue == old(queue)
    {
      StepKeepsFifo(queue, CancelFirst);
      if queue.pending != [] {
        queue := queue.(pending := queue.pending[1..],
                        delivered := queue.delivered + [Completion(queue.pending[0], Failure(Cancelled))]);
      }
    }
  }

  /** The business account the business client works in (`ENSession`'s business user). */
  datatype BusinessAccount = BusinessAccount(username: string, shardId: string, noteStoreUrl: string, businessId: int)

  /** What the business store answers to the creation: the new notebook's guid and its share. */
  datatype BusinessCreation = BusinessCreation(notebookGuid: string, share: Edam.SharedNotebook)

  /**
   * The linked-notebook record through which the user joins the notebook `made` for
   * `request` in `account`; `linkGuid` is the guid the personal store gives the record.
   */
  function JoinRecord(request: Edam.Notebook, made: BusinessCreation, account: BusinessAccount, linkGuid: string)
    : Edam.LinkedNotebook
  {
    Edam.LinkedNotebook(linkGuid, request.name, account.username, account.shardId, account.noteStoreUrl,
                        Some(made.share.globalId), None, Some(account.businessId))
  }

  /**
   * `createBusinessNotebook:success:failure:`: the business store creates a notebook
   * from `request` (answering `created`), then the user joins it through the record
   * `JoinRecord` builds, which the personal store keeps under the guid `joined`.
   * Success carries that record; the first failure is reported. The request's name
   * must be set.
   */
  function CreateBusinessNotebook(request: Edam.Notebook, account: BusinessAccount,
                                  created: Outcome<BusinessCreation>, joined: Outcome<string>)
    : (r: Outcome<Edam.LinkedNotebook>)
    requires request.name != ""
    ensures r.Success? <==> created.Success? && joined.Success?
    ensures created.Failure? ==> r == Failure(created.error)
    ensures created.Success? && joined.Failure? ==> r == Failure(joined.error)
    ensures r.Success? ==>
      && r.value.guid == joined.value
      && r.value.shareName == request.name
      && r.value.sharedNotebookGlobalId == Some(created.value.share.globalId)
      && r.value.username == account.username
      && r.value.shardId == account.shardId
      && r.value.noteStoreUrl == account.noteStoreUrl
      && r.value.businessId == Some(account.businessId)
  {
    match created
    case Failure(e) => Failure(e)
    case Success(made) =>
      match joined
      case Failure(e) => Failure(e)
      case Success(linkGuid) => Success(JoinRecord(request, made, account, linkGuid))
  }

  /**
   * A successful creation yields the parts of a business notebook: built from the share,
   * the joined record and the stored notebook (the request under its new guid), it is a
   * business notebook with the requested name and the new guid, whose record points at
   * the share the creation made.
   */
  lemma CreatedBusinessNotebookIsBusiness(request: Edam.Notebook, account: BusinessAccount,
                                          created: Outcome<BusinessCreation>, joined: Outcome<string>)
    requires request.name != ""
    requires CreateBusinessNotebook(request, account, created, joined).Success?
    ensures var ln := CreateBusinessNotebook(request, account, created, joined).value;
            var made := created.value;
            var nb := Notebooks.InitWithBusinessNotebook(made.share, ln, request.(guid := made.notebookGuid));
            && nb.IsBusinessNotebook()
            && nb.Name() == request.name
            && nb.Guid() == made.notebookGuid
            && nb.linkedNotebook.value.sharedNotebookGlobalId == Some(nb.sharedNotebook.value.globalId)
  {
  }
}

=== FILE: xml_writer.dfy ===
/**
 * `ENXMLWriter` (evernote-sdk-ios/ENSDK/Advanced/Utilities/ENMLWriter/ENXMLWriter.h:37-96):
 * a streaming XML writer that appends markup to `contents`, reports every chunk it
 * generates to its delegate, keeps `openElementCount`, and refuses elements and
 * attributes its DTD does not declare.
 *
 * `ENXMLDTD.h` is not part of this model: a DTD here is the set of declared elements
 * with the attributes each may carry, and a writer without a DTD accepts everything.
 * Escaping follows section 2.4 of the W3C XML 1.0 recommendation: `&` and `<` never
 * appear literally in character data, and attribute values additionally escape `"`.
 * The delegate's callbacks are recorded as a log of `WriterEvent`s.
 */
module XmlWriting {
  import opened Common

  datatype Dtd = Dtd(elements: map<string, set<string>>)

  predicate ElementAllowed(dtd: Option<Dtd>, element: string) {
    dtd.None? || element in dtd.value.elements
  }

  predicate AttributeAllowed(dtd: Option<Dtd>, element: string, attribute: string) {
    dtd.None? || (element in dtd.value.elements && attribute in dtd.value.elements[element])
  }

  // ---- Escaping ----

  function EscapeChar(c: char, inAttribute: bool): (r: string)
    ensures |r| > 0
  {
    if c == '&' then "&amp;"
    else if c == '<' then "&lt;"
    else if c == '>' then "&gt;"
    else if c == '"' && inAttribute then "&quot;"
    else [c]
  }

  function Escape(s: string, inAttribute: bool): string {
    if s == [] then [] else EscapeChar(s[0], inAttribute) + Escape(s[1..], inAttribute)
  }

  /**
   * Escaping for character data (`writeString:`): the text reads back unchanged and
   * the output holds no markup.
   */
  function EscapeText(s: string): (r: string)
    ensures Unescape(r) == s
    ensures forall i :: 0 <= i < |r| ==> r[i] != '<' && r[i] != '>'
    ensures forall i: nat :: i < |r| && r[i] == '&' ==> EntityAt(r, i)
  {
    UnescapeEscape(s, false);
    EscapedIsMarkupFree(s, false);
    Escape(s, false)
  }

  /**
   * Escaping for attribute values (`writeAttributeName:value:`): as for text, and the
   * value cannot close its quotes.
   */
  function EscapeAttribute(s: string): (r: string)
    ensures Unescape(r) == s
    ensures forall i :: 0 <= i < |r| ==> r[i] != '<' && r[i] != '>' && r[i] != '"'
    ensures forall i: nat :: i < |r| && r[i] == '&' ==> EntityAt(r, i)
  {
    UnescapeEscape(s, true);
    EscapedIsMarkupFree(s, true);
    Escape(s, true)
  }

  /** Reads entity references back: the inverse of both escapings. */
  function Unescape(s: string): string
    decreases |s|
  {
    if s == [] then []
    else if s[0] != '&' then [s[0]] + Unescape(s[1..])
    else if |s| >= 5 && s[1] == 'a' && s[2] == 'm' && s[3] == 'p' && s[4] == ';' then "&" + Unescape(s[5..])
    else if |s| >= 4 && s[1] == 'l' && s[2] == 't' && s[3] == ';' then "<" + Unescape(s[4..])
    else if |s| >= 4 && s[1] == 'g' && s[2] == 't' && s[3] == ';' then ">" + Unescape(s[4..])
    else if |s| >= 6 && s[1] == 'q' && s[2] == 'u' && s[3] == 'o' && s[4] == 't' && s[5] == ';' then
      "\"" + Unescape(s[6..])
    else "&" + Unescape(s[1..])
  }

  lemma UnescapeChar(c: char, inAttribute: bool, rest: string)
    ensures Unescape(EscapeChar(c, inAttribute) + rest) == [c] + Unescape(rest)
  {
    var e := EscapeChar(c, inAttribute);
    var s := e + rest;
    assert s[..|e|] == e && s[|e|..] == rest;
  }

  /** Escaping loses nothing: the original text can be read back. */
  lemma {:induction false} UnescapeEscape(s: string, inAttribute: bool)
    ensures Unescape(Escape(s, inAttribute)) == s
    decreases |s|
  {
    if s != [] {
      UnescapeChar(s[0], inAttribute, Escape(s[1..], inAttribute));
      UnescapeEscape(s[1..], inAttribute);
      assert [s[0]] + s[1..] == s;
    }
  }

  /** Escaping works character by character, so writing in pieces writes the same text. */
  lemma {:induction false} EscapeDistributes(a: string, b: string, inAttribute: bool)
    ensures Escape(a + b, inAttribute) == Escape(a, inAttribute) + Escape(b, inAttribute)
    decreases |a|
  {
    if a != [] {
      assert (a + b)[0] == a[0] && (a + b)[1..] == a[1..] + b;
      assert Escape(a + b, inAttribute) == EscapeChar(a[0], inAttribute) + Escape(a[1..] + b, inAttribute);
      EscapeDistributes(a[1..], b, inAttribute);
      assert Escape(a, inAttribute) == EscapeChar(a[0], inAttribute) + Escape(a[1..], inAttribute);
    } else {
      assert a + b == b;
    }
  }

  /** An entity reference that escaping writes starts at index `i` of `t`. */
  predicate EntityAt(t: string, i: nat) {
    || (i + 5 <= |t| && t[i..i + 5] == "&amp;")
    || (i + 4 <= |t| && t[i..i + 4] == "&lt;")
    || (i + 4 <= |t| && t[i..i + 4] == "&gt;")
    || (i + 6 <= |t| && t[i..i + 6] == "&quot;")
  }

  /** An entity reference stays one when text is put before it. */
  lemma EntityShift(e: string, r: string, i: nat)
    requires EntityAt(r, i)
    ensures EntityAt(e + r, |e| + i)
  {
    var t := e + r;
    var j := |e| + i;
    forall k | i <= k <= |r|
      ensures j + (k - i) <= |t| && t[j..j + (k - i)] == r[i..k]
    {
      assert forall x :: 0 <= x < k - i ==> t[j..j + (k - i)][x] == r[i..k][x];
    }
  }

  /** An escaped character holds `&` at most at its start, and there it starts an entity. */
  lemma EscapeCharAmpersand(c: char, inAttribute: bool, r: string)
    ensures forall i :: 0 < i < |EscapeChar(c, inAttribute)| ==> EscapeChar(c, inAttribute)[i] != '&'
    ensures EscapeChar(c, inAttribute)[0] == '&' ==> EntityAt(EscapeChar(c, inAttribute) + r, 0)
  {
    var e := EscapeChar(c, inAttribute);
    assert (e + r)[0..|e|] == e;
  }

  /** Every `&` of escaped output starts an entity reference. */
  lemma {:induction false} AmpersandsStartEntities(s: string, inAttribute: bool)
    ensures forall i: nat :: i < |Escape(s, inAttribute)| && Escape(s, inAttribute)[i] == '&' ==>
      EntityAt(Escape(s, inAttribute), i)
    decreases |s|
  {
    if s != [] {
      AmpersandsStartEntities(s[1..], inAttribute);
      var e := EscapeChar(s[0], inAttribute);
      var r := Escape(s[1..], inAttribute);
      var t := e + r;
      assert Escape(s, inAttribute) == t;
      EscapeCharAmpersand(s[0], inAttribute, r);
      forall i: nat | i < |t| && t[i] == '&'
        ensures EntityAt(t, i)
      {
        if i < |e| {
          assert e[i] == '&';
        } else {
          assert r[i - |e|] == '&';
          EntityShift(e, r, i - |e|);
        }
      }
    }
  }

  /**
   * Escaped output carries no markup: no `<` or `>` anywhere, `&` only where an entity
   * reference starts, and in attribute values no `"`.
   */
  lemma {:induction false} EscapedIsMarkupFree(s: string, inAttribute: bool)
    ensures forall i :: 0 <= i < |Escape(s, inAttribute)| ==>
      Escape(s, inAttribute)[i] != '<' && Escape(s, inAttribute)[i] != '>'
    ensures forall i: nat :: i < |Escape(s, inAttribute)| && Escape(s, inAttribute)[i] == '&' ==>
      EntityAt(Escape(s, inAttribute), i)
    ensures inAttribute ==> forall i :: 0 <= i < |Escape(s, inAttribute)| ==> Escape(s, inAttribute)[i] != '"'
    decreases |s|
  {
    AmpersandsStartEntities(s, inAttribute);
    if s != [] {
      EscapedIsMarkupFree(s[1..], inAttribute);
      var e := EscapeChar(s[0], inAttribute);
      var r := Escape(s[1..], inAttribute);
      assert Escape(s, inAttribute) == e + r;
      assert forall i :: 0 <= i < |e| ==> e[i] != '<' && e[i] != '>';
      assert inAttribute ==> forall i :: 0 <= i < |e| ==> e[i] != '"';
    }
  }

  /** Text with no character to escape is written as it is. */
  lemma {:induction false} EscapePlain(s: string, inAttribute: bool)
    requires forall i :: 0 <= i < |s| ==> s[i] != '&' && s[i] != '<' && s[i] != '>' && s[i] != '"'
    ensures Escape(s, inAttribute) == s
    decreases |s|
  {
    if s != [] {
      EscapePlain(s[1..], inAttribute);
      assert [s[0]] + s[1..] == s;
    }
  }

  /** The header's own example: `foo&bar` is written as `foo&amp;bar`. */
  lemma AttributeEscapeExample()
    ensures EscapeAttribute("foo&bar") == "foo&amp;bar"
  {
    var foo, amp, bar := "foo", "&", "bar";
    EscapePlain(foo, true);
    EscapePlain(bar, true);
    assert Escape(amp, true) == "&amp;";
    EscapeDistributes(amp, bar, true);
    EscapeDistributes(foo, amp + bar, true);
    assert foo + (amp + bar) == "foo&bar";
    assert foo + ("&amp;" + bar) == "foo&amp;bar";
  }

  // ---- The text each call writes ----

  datatype WriterEvent =
    | DidGenerateData(data: string)
    | DidEndWritingDocument

  /** Everything the delegate has received, in order. */
  function DataOf(events: seq<WriterEvent>): string
    decreases |events|
  {
    if events == [] then []
    else
      var last := events[|events| - 1];
      DataOf(events[..|events| - 1]) + (if last.DidGenerateData? then last.data else [])
  }

  /** A chunk handed to the delegate extends what it has received by that chunk. */
  lemma DataOfAppendData(events: seq<WriterEvent>, text: string)
    ensures DataOf(events + [DidGenerateData(text)]) == DataOf(events) + text
  {
    assert (events + [DidGenerateData(text)])[..|events|] == events;
  }

  /** The end-of-document callback carries no data. */
  lemma DataOfAppendEnd(events: seq<WriterEvent>)
    ensures DataOf(events + [DidEndWritingDocument]) == DataOf(events)
  {
    assert (events + [DidEndWritingDocument])[..|events|] == events;
  }

  const XmlDeclaration: string := "<?xml version=\"1.0\" encoding=\"UTF-8\"?>\n"

  /** A start tag still waiting for attributes is closed before anything else is written. */
  function CloseStartTag(tagOpen: bool): string {
    if tagOpen then ">" else []
  }

  /** What a call writing `text` produces: `text`, after closing a start tag still open. */
  function AfterStartTag(tagOpen: bool, text: string): string {
    CloseStartTag(tagOpen) + text
  }

  function AttributeText(name: string, value: string): string {
    " " + name + "=\"" + EscapeAttribute(value) + "\""
  }

  /** The attributes a start tag receives: those the DTD allows, in the order given. */
  function AttributesText(dtd: Option<Dtd>, element: string, attrs: seq<(string, string)>): string
    decreases |attrs|
  {
    if attrs == [] then []
    else
      var last := attrs[|attrs| - 1];
      AttributesText(dtd, element, attrs[..|attrs| - 1])
        + (if AttributeAllowed(dtd, element, last.0) then AttributeText(last.0, last.1) else [])
  }

  /** One more attribute adds its text when the DTD allows it, and nothing otherwise. */
  lemma AttributesTextStep(dtd: Option<Dtd>, element: string, attrs: seq<(string, string)>, i: nat)
    requires i < |attrs|
    ensures AttributeAllowed(dtd, element, attrs[i].0) ==>
      AttributesText(dtd, element, attrs[..i + 1])
        == AttributesText(dtd, element, attrs[..i]) + AttributeText(attrs[i].0, attrs[i].1)
    ensures !AttributeAllowed(dtd, element, attrs[i].0) ==>
      AttributesText(dtd, element, attrs[..i + 1]) == AttributesText(dtd, element, attrs[..i])
  {
    assert attrs[..i + 1][..i] == attrs[..i];
    assert AttributesText(dtd, element, attrs[..i]) + [] == AttributesText(dtd, element, attrs[..i]);
  }

  /** Closing the innermost element: an element with nothing written inside it is closed as empty. */
  function EndTagText(tagOpen: bool, element: string): string {
    if tagOpen then "/>" else "</" + element + ">"
  }

  /** What closing every element of `stack`, innermost first, writes. */
  function ClosingText(tagOpen: bool, stack: seq<string>): string
    decreases |stack|
  {
    if stack == [] then []
    else EndTagText(tagOpen, stack[|stack| - 1]) + ClosingText(false, stack[..|stack| - 1])
  }

  /**
   * A complete element as `writeElement:attributes:content:` writes it: with content,
   * `>`, the escaped content and the end tag; without, `/>`.
   */
  function ElementText(dtd: Option<Dtd>, element: string, attrs: seq<(string, string)>, content: Option<string>)
    : string
  {
    "<" + element + AttributesText(dtd, element, attrs)
      + ((if content.Some? then ">" + EscapeText(content.value) else []) + EndTagText(content.None?, element))
  }

  /** Closing the elements of a non-empty stack starts with the innermost one's end tag. */
  lemma ClosingTextStep(tagOpen: bool, stack: seq<string>)
    requires stack != []
    ensures ClosingText(tagOpen, stack)
      == EndTagText(tagOpen, stack[|stack| - 1]) + ClosingText(false, stack[..|stack| - 1])
  {
  }

  /** Closing every open element writes one end tag per element, outermost last. */
  lemma {:induction false} ClosingTextEndsWithOutermost(tagOpen: bool, stack: seq<string>)
    requires |stack| > 0 && !tagOpen
    ensures var t := ClosingText(tagOpen, stack); var tail := "</" + stack[0] + ">";
      |tail| <= |t| && t[|t| - |tail|..] == tail
    decreases |stack|
  {
    if |stack| > 1 {
      var init := stack[..|stack| - 1];
      ClosingTextEndsWithOutermost(false, init);
      assert init[0] == stack[0];
    }
  }

  /** Writing two pieces in one call appends them in order. */
  lemma AppendAssoc(a: string, b: string, c: string)
    ensures a + (b + c) == a + b + c
  {
  }

  /** The pieces of one element, written call by call, make up the element's text. */
  lemma RegroupStartTag(before: string, c: string, x: string, a: string, p: string, q: string)
    ensures before + (c + x) + a + p + q == before + (c + (x + a + (p + q)))
  {
  }

  /** Starting an element, writing its content and ending it writes `ElementText`. */
  lemma ElementTextComposes(before: string, started: string, written: string, after: string, wasOpen: bool,
                            dtd: Option<Dtd>, element: string, attrs: seq<(string, string)>, content: Option<string>)
    requires started == before + AfterStartTag(wasOpen, "<" + element) + AttributesText(dtd, element, attrs)
    requires content.None? ==> written == started
    requires content.Some? ==> written == started + AfterStartTag(true, EscapeText(content.value))
    requires after == written + EndTagText(content.None?, element)
    ensures after == before + AfterStartTag(wasOpen, ElementText(dtd, element, attrs, content))
  {
    var c, x, attributes := CloseStartTag(wasOpen), "<" + element, AttributesText(dtd, element, attrs);
    var p := if content.Some? then AfterStartTag(true, EscapeText(content.value)) else [];
    var q := EndTagText(content.None?, element);
    assert written == before + (c + x) + attributes + p;
    RegroupStartTag(before, c, x, attributes, p, q);
  }

  // ---- The writer ----

  class XmlWriter {
    var dtd: Option<Dtd>
    /** `openElementCount`. */
    var openElementCount: nat
    /** `contents`: everything written so far. */
    var contents: string
    /** The open elements, outermost first. */
    var stack: seq<string>
    /** The innermost start tag is not closed yet, so attributes may still follow. */
    var tagOpen: bool
    var inCDATA: bool
    /** The delegate's callbacks so far. */
    var events: seq<WriterEvent>

    /** `contents` is exactly what the delegate has been handed. */
    ghost predicate Logged()
      reads this`contents, this`events
    {
      contents == DataOf(events)
    }

    ghost predicate Valid()
      reads this
    {
      && openElementCount == |stack|
      && (tagOpen ==> |stack| > 0)
      && Logged()
    }

    /** `initWithDelegate:` followed by setting `dtd`. */
    constructor (dtd: Option<Dtd>)
      ensures Valid() && this.dtd == dtd
      ensures openElementCount == 0 && contents == [] && events == [] && !tagOpen && !inCDATA
    {
      this.dtd := dtd;
      openElementCount := 0;
      contents := [];
      stack := [];
      tagOpen := false;
      inCDATA := false;
      events := [];
    }

    /** Appends `text` and hands it to the delegate. */
    method Emit(text: string)
      requires Valid()
      modifies this
      ensures Valid()
      ensures contents == old(contents) + text
      ensures events == old(events) + [DidGenerateData(text)]
      ensures dtd == old(dtd) && stack == old(stack) && tagOpen == old(tagOpen)
      ensures inCDATA == old(inCDATA) && openElementCount == old(openElementCount)
    {
      DataOfAppendData(events, text);
      events := events + [DidGenerateData(text)];
      contents := contents + text;
    }

    /** `startDocument`. */
    method StartDocument()
      requires Valid()
      modifies this
      ensures Valid()
      ensures contents == old(contents) + XmlDeclaration
      ensures events == old(events) + [DidGenerateData(XmlDeclaration)]
      ensures openElementCount == old(openElementCount)
      ensures dtd == old(dtd) && stack == old(stack) && tagOpen == old(tagOpen) && inCDATA == old(inCDATA)
    {
      Emit(XmlDeclaration);
    }

    /** `startElement:` — refused, writing nothing, when the DTD does not declare `element`. */
    method StartElement(element: string) returns (ok: bool)
      requires Valid()
      modifies this
      ensures Valid() && dtd == old(dtd) && inCDATA == old(inCDATA)
      ensures ok == ElementAllowed(dtd, element)
      ensures ok ==>
        && contents == old(contents) + AfterStartTag(old(tagOpen), "<" + element)
        && stack == old(stack) + [element] && tagOpen
        && openElementCount == old(openElementCount) + 1
      ensures !ok ==> contents == old(contents) && events == old(events)
      ensures !ok ==> stack == old(stack) && tagOpen == old(tagOpen)
    {
      if !ElementAllowed(dtd, element) {
        return false;
      }
      var text := AfterStartTag(tagOpen, "<" + element);
      stack := stack + [element];
      openElementCount := openElementCount + 1;
      tagOpen := true;
      Emit(text);
      ok := true;
    }

    /**
     * `startElement:attributes:` — starts the element, then writes each attribute
     * through `writeAttributeName:value:`, which leaves out those the DTD refuses.
     */
    method StartElementWithAttributes(element: string, attrs: seq<(string, string)>) returns (ok: bool)
      requires Valid()
      modifies this
      ensures Valid() && dtd == old(dtd) && inCDATA == old(inCDATA)
      ensures ok == ElementAllowed(dtd, element)
      ensures ok ==>
        && contents == old(contents) + AfterStartTag(old(tagOpen), "<" + element) + AttributesText(dtd, element, attrs)
        && stack == old(stack) + [element] && tagOpen
        && openElementCount == old(openElementCount) + 1
      ensures !ok ==> contents == old(contents) && events == old(events)
      ensures !ok ==> stack == old(stack) && tagOpen == old(tagOpen)
    {
      ok := StartElement(element);
      if !ok {
        return;
      }
      var start := contents;
      for i := 0 to |attrs|
        invariant Valid() && dtd == old(dtd) && inCDATA == old(inCDATA)
        invariant stack == old(stack) + [element] && tagOpen
        invariant contents == start + AttributesText(dtd, element, attrs[..i])
      {
        var written := WriteAttributeName(attrs[i].0, attrs[i].1);
        AttributesTextStep(dtd, element, attrs, i);
        if written {
          AppendAssoc(start, AttributesText(dtd, element, attrs[..i]), AttributeText(attrs[i].0, attrs[i].1));
        }
      }
      assert attrs[..|attrs|] == attrs;
    }

    /** `endElement`: closes the innermost open element; with none open it does nothing. */
    method EndElement()
      requires Valid()
      modifies this
      ensures Valid() && dtd == old(dtd) && inCDATA == old(inCDATA) && !tagOpen
      ensures old(stack) == [] ==> contents == old(contents) && events == old(events) && stack == []
      ensures old(stack) != [] ==>
        && contents == old(contents) + EndTagText(old(tagOpen), old(stack)[|old(stack)| - 1])
        && stack == old(stack)[..|old(stack)| - 1]
        && openElementCount == old(openElementCount) - 1
    {
      if stack == [] {
        return;
      }
      var text := EndTagText(tagOpen, stack[|stack| - 1]);
      stack := stack[..|stack| - 1];
      openElementCount := openElementCount - 1;
      tagOpen := false;
      Emit(text);
    }

    /**
     * `writeAttributeName:value:` — takes the value unescaped and writes it escaped;
     * refused when no start tag is open or the DTD does not allow the attribute there.
     */
    method WriteAttributeName(name: string, value: string) returns (ok: bool)
      requires Valid()
      modifies this
      ensures Valid() && dtd == old(dtd) && inCDATA == old(inCDATA)
      ensures stack == old(stack) && tagOpen == old(tagOpen)
      ensures ok <==> old(tagOpen) && AttributeAllowed(dtd, old(stack)[|old(stack)| - 1], name)
      ensures ok ==> contents == old(contents) + AttributeText(name, value)
      ensures !ok ==> contents == old(contents) && events == old(events)
    {
      if !tagOpen || !AttributeAllowed(dtd, stack[|stack| - 1], name) {
        return false;
      }
      Emit(AttributeText(name, value));
      ok := true;
    }

    /** `writeString:` — escaped; nil writes nothing. */
    method WriteString(s: Option<string>)
      requires Valid()
      modifies this
      ensures Valid() && dtd == old(dtd) && inCDATA == old(inCDATA) && stack == old(stack)
      ensures s.None? ==> contents == old(contents) && events == old(events) && tagOpen == old(tagOpen)
      ensures s.Some? ==> contents == old(contents) + AfterStartTag(old(tagOpen), EscapeText(s.value)) && !tagOpen
    {
      if s.None? {
        return;
      }
      var text := AfterStartTag(tagOpen, EscapeText(s.value));
      tagOpen := false;
      Emit(text);
    }

    /** `writeRawString:` — written exactly as given; nil writes nothing. */
    method WriteRawString(s: Option<string>)
      requires Valid()
      modifies this
      ensures Valid() && dtd == old(dtd) && inCDATA == old(inCDATA) && stack == old(stack)
      ensures s.None? ==> contents == old(contents) && events == old(events) && tagOpen == old(tagOpen)
      ensures s.Some? ==> contents == old(contents) + AfterStartTag(old(tagOpen), s.value) && !tagOpen
    {
      if s.None? {
        return;
      }
      var text := AfterStartTag(tagOpen, s.value);
      tagOpen := false;
      Emit(text);
    }

    /** `startCDATA`. */
    method StartCDATA()
      requires Valid()
      modifies this
      ensures Valid() && dtd == old(dtd) && stack == old(stack)
      ensures contents == old(contents) + AfterStartTag(old(tagOpen), "<![CDATA[")
      ensures inCDATA && !tagOpen
    {
      var text := AfterStartTag(tagOpen, "<![CDATA[");
      tagOpen := false;
      inCDATA := true;
      Emit(text);
    }

    /** `writeCDATA:` — character data inside a CDATA section is not escaped (XML 1.0 section 2.7). */
    method WriteCDATA(text: string)
      requires Valid()
      modifies this
      ensures Valid() && dtd == old(dtd) && stack == old(stack) && inCDATA == old(inCDATA)
      ensures contents == old(contents) + AfterStartTag(old(tagOpen), text) && !tagOpen
    {
      var written := AfterStartTag(tagOpen, text);
      tagOpen := false;
      Emit(written);
    }

    /** `endCDATA`: closes the open CDATA section, if any. */
    method EndCDATA()
      requires Valid()
      modifies this
      ensures Valid() && dtd == old(dtd) && stack == old(stack) && tagOpen == old(tagOpen) && !inCDATA
      ensures old(inCDATA) ==> contents == old(contents) + "]]>"
      ensures !old(inCDATA) ==> contents == old(contents) && events == old(events)
    {
      if inCDATA {
        inCDATA := false;
        Emit("]]>");
      }
    }

    /**
     * `writeElement:attributes:content:` — one complete element; refused when the DTD
     * does not declare it. The open-element count ends where it started.
     */
    method WriteElement(element: string, attrs: seq<(string, string)>, content: Option<string>) returns (ok: bool)
      requires Valid()
      modifies this
      ensures Valid() && dtd == old(dtd) && inCDATA == old(inCDATA)
      ensures ok == ElementAllowed(dtd, element)
      ensures stack == old(stack) && openElementCount == old(openElementCount)
      ensures ok ==> contents == old(contents) + AfterStartTag(old(tagOpen), ElementText(dtd, element, attrs, content))
      ensures ok ==> !tagOpen
      ensures !ok ==> contents == old(contents) && events == old(events) && tagOpen == old(tagOpen)
    {
      ghost var before := contents;
      ghost var wasOpen := tagOpen;
      ok := StartElementWithAttributes(element, attrs);
      if !ok {
        return;
      }
      ghost var started := contents;
      WriteString(content);
      ghost var written := contents;
      EndElement();
      ElementTextComposes(before, started, written, contents, wasOpen, dtd, element, attrs, content);
    }

    /**
     * `endDocument`: closes every open element, innermost first, then tells the
     * delegate the document is finished.
     */
    method EndDocument()
      requires Valid()
      modifies this
      ensures Valid() && dtd == old(dtd) && inCDATA == old(inCDATA)
      ensures openElementCount == 0 && stack == [] && !tagOpen
      ensures contents == old(contents) + ClosingText(old(tagOpen), old(stack))
      ensures |events| > 0 && events[|events| - 1] == DidEndWritingDocument
    {
      while stack != []
        invariant Valid() && dtd == old(dtd) && inCDATA == old(inCDATA)
        invariant old(contents) + ClosingText(old(tagOpen), old(stack)) == contents + ClosingText(tagOpen, stack)
        decreases |stack|
      {
        ghost var before, wasOpen, open := contents, tagOpen, stack;
        ghost var rest := ClosingText(false, open[..|open| - 1]);
        ClosingTextStep(wasOpen, open);
        EndElement();
        AppendAssoc(before, EndTagText(wasOpen, open[|open| - 1]), rest);
      }
      NotifyEnd();
    }

    /** Tells the delegate the document is finished. */
    method NotifyEnd()
      requires Valid()
      modifies this
      ensures Valid()
      ensures events == old(events) + [DidEndWritingDocument]
      ensures contents == old(contents) && dtd == old(dtd) && stack == old(stack) && tagOpen == old(tagOpen)
      ensures inCDATA == old(inCDATA) && openElementCount == old(openElementCount)
    {
      DataOfAppendEnd(events);
      events := events + [DidEndWritingDocument];
    }
  }
}
